=== FILE: README.md ===
# Boat Attack water system — sample registry, schedulers and wave setup in Dafny

This project models the state-keeping core of the Boat Attack water system, a Unity
package. It covers six source files.

- **The CPU wave-sampling service** (`GerstnerWavesJobs`). Consumers register their
  sample points in a shared 4096-slot position buffer. A registry maps each consumer
  id to a half-open index range. A double-buffered scheduler runs the Gerstner
  height job over positions A into outputs A, while consumers write positions B and
  read outputs B.
- **The local-to-world conversion table** (`LocalToWorldJob`). Each id owns a copy
  of its local points, a world buffer, the matrix of its last job and a
  `Processing` flag.
- **The single-point water trigger** (`WaterEvent`). A four-state machine
  (None, Submerged, Entered, Exited) with listener dispatch.
- **The debug sample grid** (`WaterLevelDebug`). It fills an nx-by-ny grid of
  points and re-registers the grid when its size changes.
- **The ocean component** (`Ocean`). It generates the wave spectrum from a seed
  schedule, floors the maximum wave height, selects the reflection, SSR,
  structured-buffer and debug shader keywords, and guards the sampler's
  initialisation.
- **The shared value types** (`Data`). Reflection keywords, SSR step values, the
  basic-wave constructor and the ocean-settings defaults.

Modules and files:

| module | file | models |
|---|---|---|
| `Wrappers` | `wrappers.dfy` | the exceptions the code can throw, as `Outcome`/`Result` values |
| `WaterData` | `data.dfy` | `Runtime/Data/Data.cs` |
| `SampleRegistry` | `sample_registry.dfy` | the registry as a value: the tiling invariant, reservation and removal |
| `GerstnerWaves` | `gerstner_waves_jobs.dfy` | `Runtime/GerstnerWavesJobs.cs`, as a class proved against `SampleRegistry` |
| `LocalToWorld` | `local_to_world_job.dfy` | `Runtime/LocalToWorldJob.cs` |
| `WaterEvents` | `water_event.dfy` | `Runtime/Physics/WaterEvent.cs` |
| `WaterLevelDebugging` | `water_level_debug.dfy` | `Runtime/Physics/WaterLevelDebug.cs` |
| `OceanSystem` | `ocean.dfy` | `Runtime/Ocean.cs` |

How the model is represented:

- **Static classes become objects.** The static classes (`GerstnerWavesJobs`,
  `LocalToWorldJob`) become one object each. Their constructors give the static
  field initialisers.
- **Native arrays.** Unity native arrays become Dafny `array?` fields. `null`
  stands for an array that was never created.
- **Exceptions.** A thrown exception becomes a `Fail` outcome.
- **Single-precision floats** are reals.
- **C# enums** are `int`, because a C# enum variable can hold any integer.

Things outside the model's reach are parameters:

- Unity's random generator is a function `draw` of the generator's state.
- The per-sample Gerstner kernel is the function `kernel`.
- The depth-profile curve is `waveDepthProfile`.
- The `2π/x` wavelength term is `angular`.
- `transform.TransformPoint` is `transform`.
- The submersion test of `WaterEvent` is the boolean `facingBelow`.
- `Application.isPlaying` is `isPlaying`.
- Whether the caller has already disposed the output array it gave `LocalToWorldJob.SetupJob` is `outputDisposed`.
- `Ocean.Instance != null` is `oceanPresent`.

`RemoveSamplePoints` only shifts the indices of the later ranges: no buffer
content moves. Each consumer's next `UpdateSamplePoints` rewrites its own slots.

## Model

| member | source | states |
|---|---|---|
| WaterData.GetReflectionKeyword | Runtime/Data/Data.cs:139-153 | succeeds exactly for the four declared reflection types, always with one of the four reflection keywords; any other value fails with ArgumentOutOfRange |
| WaterData.ReflectionKeywordTable | Runtime/Data/Data.cs:139-150 | Cubemap, ReflectionProbe, PlanarReflection and ScreenSpaceReflection map to `_REFLECTION_CUBEMAP`, `_REFLECTION_PROBES`, `_REFLECTION_PLANARREFLECTION` and `_REFLECTION_SSR` |
| WaterData.ReflectionKeywordInjective | Runtime/Data/Data.cs:13-16 | two reflection types with the same keyword are the same type, so the four keywords are pairwise distinct |
| WaterData.ReflectionKeywordsCovered | Runtime/Data/Data.cs:139-150 | every reflection keyword is the keyword of some declared type (together with the injectivity lemma: a bijection) |
| WaterData.NewBasicWaves | Runtime/Data/Data.cs:94-100 | the constructor always sets six waves and keeps amplitude, direction and wavelength unchanged |
| WaterData.DefaultOceanSettings | Runtime/Data/Data.cs:28-79 | defaults are SSR reflections (keyword `_REFLECTION_SSR`), Low (8) SSR steps, seed 3234 and basic waves (0.5, 45, 5) with six waves |
| SampleRegistry.Removed | Runtime/GerstnerWavesJobs.cs:141-166 | removal deletes exactly the id; every surviving entry is shifted down by the removed size when it starts after the removed start |
| SampleRegistry.RegisteredInBounds | Runtime/GerstnerWavesJobs.cs:125-128 | under the tiling invariant a registered range lies inside [0, positionCount), so the overwrite loop stays inside the buffer |
| SampleRegistry.ShiftedAllByEntries | Runtime/GerstnerWavesJobs.cs:150-163 | a registry with the same keys whose every entry is the shifted old entry is the whole-registry shift |
| SampleRegistry.ReservePreservesTiles | Runtime/GerstnerWavesJobs.cs:132-137 | appending [positionCount, positionCount + n) for a new id keeps the ranges tiling the grown prefix |
| SampleRegistry.ReservePreservesInv | Runtime/GerstnerWavesJobs.cs:132-137 | an admitted reservation (positionCount + n < 4096) keeps the tiling and the capacity bound |
| SampleRegistry.SidesOfRemoved | Runtime/GerstnerWavesJobs.cs:152-163 | relative to a non-empty removed range, every other range lies wholly before it or wholly after it |
| SampleRegistry.SurvivorsOfRemoval | Runtime/GerstnerWavesJobs.cs:152-165 | after a non-empty removal each survivor lies inside the shorter prefix, either in place (before the gap) or moved down by the removed size (after it) |
| SampleRegistry.RemoveEmptyPreservesTiles | Runtime/GerstnerWavesJobs.cs:141-166 | removing an empty range keeps the tiling of the same prefix |
| SampleRegistry.RemovedApart | Runtime/GerstnerWavesJobs.cs:152-163 | after a removal no two surviving ranges overlap |
| SampleRegistry.RemovedCovered | Runtime/GerstnerWavesJobs.cs:152-165 | after a removal every slot of the shorter prefix is owned, so the gap is closed |
| SampleRegistry.RemovePreservesTiles | Runtime/GerstnerWavesJobs.cs:141-166 | removal keeps the ranges tiling [0, positionCount − size) |
| SampleRegistry.RemovePreservesInv | Runtime/GerstnerWavesJobs.cs:141-166 | removal keeps the registry invariant, and the position counter does not grow or go negative |
| SampleRegistry.RemovedEntries | Runtime/GerstnerWavesJobs.cs:152-163 | removal keeps every survivor's size, leaves earlier ranges in place, moves later starts down by the removed size and keeps the order of starts |
| SampleRegistry.RemovalCompactionExample | Runtime/GerstnerWavesJobs.cs:141-166 | with consumers of 5, 3 and 2 slots, removing the middle one moves the last to [5, 7) |
| GerstnerWaves.InitLayoutPartitionsData | Runtime/GerstnerWavesJobs.cs:70-99 | Init's six views of `_data` are consecutive, start at 0, end at 19·4096 + 32, and every float belongs to exactly one view; with S = 4096 they are [0,3S), [3S,6S), [6S,12S), [12S,18S), [18S,19S), [19S,19S+32) |
| GerstnerWaves.HeightJob | Runtime/GerstnerWavesJobs.cs:268-321 | with a per-sample opacity buffer, output i for every i < count is the kernel of position i and opacity i; the slots from count on are untouched |
| GerstnerWaves.HeightJobAsWritten | Runtime/GerstnerWavesJobs.cs:313-318 | with `Opacity` bound to the depth profile, the job throws IndexOutOfRange exactly when count exceeds the profile's length; every sample below both is the kernel of position i and profile entry i; the slots from count on are untouched |
| GerstnerWaves.AsWrittenJobOpacityOverrun | Runtime/GerstnerWavesJobs.cs:220-231 | a fresh service, initialised, with one consumer of 33 points (admitted, since 33 < 4096), fails its next as-written `UpdateHeights` with IndexOutOfRange |
| GerstnerWaves.NativeData.constructor | Runtime/GerstnerWavesJobs.cs:70-105 | the allocation yields six fresh, distinct views of the lengths Init gives them, with the depth profile filled from the curve |
| GerstnerWaves.FillDepthProfile | Runtime/GerstnerWavesJobs.cs:100-105 | depth-profile entry i is the curve evaluated at i/32, for all 32 entries |
| GerstnerWaves.GerstnerWavesJobs.constructor | Runtime/GerstnerWavesJobs.cs:17-60 | the static initial state: not initialised, first frame, nothing in flight, no buffers, empty registry, counter 0 |
| GerstnerWaves.GerstnerWavesJobs.Capacity | Runtime/GerstnerWavesJobs.cs:132 | the buffer length used by the admission test is 0 before Init and 4096 after it |
| GerstnerWaves.GerstnerWavesJobs.Init | Runtime/GerstnerWavesJobs.cs:63-108 | without an ocean nothing changes; otherwise fresh buffers of the Init lengths, the depth profile sampled at i/32, and the service initialised, with the registry and the scheduler flags untouched |
| GerstnerWaves.GerstnerWavesJobs.Attach | Runtime/GerstnerWavesJobs.cs:83-99 | the static view fields name the views of the new `_data`, and the service invariant still holds |
| GerstnerWaves.GerstnerWavesJobs.Cleanup | Runtime/GerstnerWavesJobs.cs:110-121 | `_data` is no longer created and the service is not initialised; the registry and the counter survive |
| GerstnerWaves.GerstnerWavesJobs.UpdateSamplePoints | Runtime/GerstnerWavesJobs.cs:123-139 | a known id overwrites exactly its own slots of positions B from the sample points, and nothing else changes; a new id is admitted iff positionCount + n < buffer length, gets [positionCount, positionCount + n), advances the counter by n and writes no positions; a refused id changes nothing; the tiling invariant holds afterwards |
| GerstnerWaves.GerstnerWavesJobs.RemoveSamplePoints | Runtime/GerstnerWavesJobs.cs:141-166 | an absent id is a no-op; otherwise the registry becomes `Removed` of the old one, the counter drops by the removed size, no buffer moves, and the invariant holds |
| GerstnerWaves.GerstnerWavesJobs.ShiftEntriesAfter | Runtime/GerstnerWavesJobs.cs:150-163 | the key loop visits every entry once and leaves the registry equal to its whole-registry shift |
| GerstnerWaves.GerstnerWavesJobs.GetData | Runtime/GerstnerWavesJobs.cs:168-174 | an absent id leaves the output alone; otherwise the output becomes exactly the id's slice of outputs B, which lies inside the buffer |
| GerstnerWaves.GerstnerWavesJobs.CompleteJobs | Runtime/GerstnerWavesJobs.cs:238-249 | nothing happens on the first frame or with nothing in flight; otherwise the output buffers trade places and positions A become a copy of positions B; afterwards nothing is in flight |
| GerstnerWaves.GerstnerWavesJobs.UpdateHeights | Runtime/GerstnerWavesJobs.cs:177-236 | after completing the previous job, with an ocean present the job is in flight and the first frame is over; outputs A at [0, positionCount) hold the kernel of positions A and the per-sample `_opacity` buffer, and the slots above the count are untouched; without an ocean nothing is in flight; the early return on `_processing` never fires |
| GerstnerWaves.GerstnerWavesJobs.UpdateHeightsAsWritten | Runtime/GerstnerWavesJobs.cs:177-236 | the same completion, swap, copy, flags and untouched slots as `UpdateHeights`; with an ocean present, outputs A below both the count and 32 hold the kernel of positions A and depth-profile entry i, and the job throws IndexOutOfRange exactly when more than 32 samples are registered |
| LocalToWorld.TransformPointIgnoresBottomRow | Runtime/LocalToWorldJob.cs:25-29 | with w = 1 and only xyz kept, the bottom row of the matrix never affects the result |
| LocalToWorld.Convert | Runtime/LocalToWorldJob.cs:23-30 | world index i receives the transform of local point i, from that point and the matrix alone; indices past the local buffer keep their values |
| LocalToWorld.TransformLocalToWorld.constructor | Runtime/LocalToWorldJob.cs:37-47 | the entry owns a fresh local buffer equal element-wise to the positions and adopts the caller's output as its world buffer |
| LocalToWorld.TransformLocalToWorld.CompleteHandle | Runtime/LocalToWorldJob.cs:84 | completing the handle lands the writes of a job in flight with its own matrix and leaves an idle entry's world buffer unchanged; the flag and the matrix are not touched |
| LocalToWorld.TransformLocalToWorld.Complete | Runtime/LocalToWorldJob.cs:71-75 | a job in flight lands its writes with its own matrix; an idle entry's world buffer is unchanged; the flag ends cleared |
| LocalToWorld.LocalToWorldJob.constructor | Runtime/LocalToWorldJob.cs:12-13 | the table starts empty |
| LocalToWorld.LocalToWorldJob.SetupJob | Runtime/LocalToWorldJob.cs:33-50 | a new id gets a fresh idle entry holding a copy of the positions and the caller's output, and the other entries are kept; an id already present fails with DuplicateKey and leaves the table alone |
| LocalToWorld.LocalToWorldJob.ScheduleJob | Runtime/LocalToWorldJob.cs:52-69 | an unknown id fails with KeyNotFound; an entry in flight is unchanged; otherwise the entry records the matrix and is in flight |
| LocalToWorld.LocalToWorldJob.CompleteJob | Runtime/LocalToWorldJob.cs:71-75 | an unknown id fails with KeyNotFound; otherwise the entry is idle afterwards with its matrix kept; a job that was in flight has written every world point from its local point and left the slots past the local buffer alone; an idle entry's world buffer is unchanged |
| LocalToWorld.LocalToWorldJob.Cleanup | Runtime/LocalToWorldJob.cs:77-88 | an unknown id is a silent no-op; otherwise the entry's handle is completed, landing the writes of a job in flight, and its flag and matrix are left as they were; when the caller has already disposed its output, the second dispose fails with ObjectDisposed and the table and the disposed set stay as they were, the entry still in flight if it was; otherwise both buffers (the world buffer being the caller's output) join the disposed set and exactly that entry is removed, every other entry kept |
| LocalToWorld.CleanupAfterDisposedOutput | Runtime/LocalToWorldJob.cs:52-88 | after setup and scheduling with m, a cleanup whose output the caller already disposed fails with ObjectDisposed; the entry stays in the table, still in flight with m, so a later ScheduleJob changes nothing |
| LocalToWorld.ScheduleThenComplete | Runtime/LocalToWorldJob.cs:33-75 | setting up, scheduling with m and completing leaves the output holding every local point moved by m, with the entry idle again |
| WaterEvents.NextState | Runtime/Physics/WaterEvent.cs:83-90 | Entered/Exited exactly when the submersion changed, Submerged/Entered exactly when now submerged; together these fix the state |
| WaterEvents.NextStateInjective | Runtime/Physics/WaterEvent.cs:83-90 | each state comes from exactly one pair of submersion flags |
| WaterEvents.SubmergedArgumentAlwaysFalse | Runtime/Physics/WaterEvent.cs:56-62 | whenever the submerged listeners fire, `currentState == Submerged` is false |
| WaterEvents.CollisionWithoutSubmersionChange | Runtime/Physics/WaterEvent.cs:48-54 | Entered followed by a second frame under water changes the state to Submerged, so the collision listeners fire without a submersion change |
| WaterEvents.WaterEvent.constructor | Runtime/Physics/WaterEvent.cs:14-22 | the listener lists as given, both states None, both flags false, no sample buffer |
| WaterEvents.WaterEvent.CheckState | Runtime/Physics/WaterEvent.cs:75-91 | the old state and flag are saved, the flag takes the new submersion, and the state agrees with `NextState` of the pair |
| WaterEvents.WaterEvent.Dispatch | Runtime/Physics/WaterEvent.cs:45-62 | when not playing nothing is called; otherwise each collision listener is called once, in order, with the current state iff the state changed, and each submerged listener once with `false` iff the submersion changed |
| WaterEvents.WaterEvent.Update | Runtime/Physics/WaterEvent.cs:35-63 | CheckState then dispatch: the listener calls above, in terms of the state before and after the frame |
| WaterEvents.WaterEvent.UpdateSamplePoint | Runtime/Physics/WaterEvent.cs:65-73 | the one-point buffer is created on first use and then holds exactly the object's position; no state changes |
| WaterEvents.WaterEvent.OnDisable | Runtime/Physics/WaterEvent.cs:29-33 | the id is no longer registered (the registry is `Removed` of the old one when it was), and the sample buffer is released; the counter drops by the removed size; the sampler's flags, buffer references, positions B and wave array are kept, and so are the event's state, previous state and listener lists |
| WaterLevelDebugging.OffsetCentred | Runtime/Physics/WaterLevelDebug.cs:70-73 | grid lines i and n−1−i lie symmetrically about the object |
| WaterLevelDebugging.OffsetStep | Runtime/Physics/WaterLevelDebug.cs:70-73 | consecutive grid lines are `arraySpacing` apart |
| WaterLevelDebugging.GridIndexRoundTrip | Runtime/Physics/WaterLevelDebug.cs:74 | cell (i, j) is stored at i·ny + j, which lies inside the nx·ny buffer, and division and remainder by ny give the cell back |
| WaterLevelDebugging.GridIndexOnto | Runtime/Physics/WaterLevelDebug.cs:67-76 | every buffer index is the index of one cell, so the nested loop writes every index |
| WaterLevelDebugging.FillGrid | Runtime/Physics/WaterLevelDebug.cs:67-76 | with a positive grid every index k holds the transformed point of cell (k / ny, k % ny); with an empty grid nothing is written |
| WaterLevelDebugging.WaterLevelDebug.constructor | Runtime/Physics/WaterLevelDebug.cs:10-14 | a 1×1 grid with spacing 1 and no arrays |
| WaterLevelDebugging.WaterLevelDebug.ReserveBuffer | Runtime/Physics/WaterLevelDebug.cs:55-65 | the buffer ends with nx·ny entries (a negative count throws); a buffer of the wrong length is first unregistered, then replaced; a buffer of the right length is reused; the sampler changes only in its registry and counter |
| WaterLevelDebugging.WaterLevelDebug.FillAndResize | Runtime/Physics/WaterLevelDebug.cs:67-79 | the grid fills the buffer, and the output copy has the buffer's length, the existing array being kept when it already matches and a fresh one otherwise |
| WaterLevelDebugging.WaterLevelDebug.UpdateSamplePoints | Runtime/Physics/WaterLevelDebug.cs:53-80 | the buffer holds nx·ny grid points and the output copy matches it; a stale registration is removed before reallocation, so a registered range always has the buffer's size and the next sampler update reserves a fresh range; a negative count fails before the output copy is touched; a replaced output copy is fresh; the sampler changes only in its registry and counter |
| WaterLevelDebugging.WaterLevelDebug.Cleanup | Runtime/Physics/WaterLevelDebug.cs:36-42 | the grid is unregistered (the registry is the removal of the old one, the counter drops by its size) and then the buffer is released; the sampler changes only in its registry and counter, and the grid size, spacing and output copy are kept |
| OceanSystem.GlobalRandom.InitState | Runtime/Ocean.cs:412 | seeding leaves the generator at that seed with no draws taken |
| OceanSystem.GlobalRandom.Range | Runtime/Ocean.cs:428-430 | a draw is a function of the generator's state and advances it by one draw |
| OceanSystem.ShaderKeywords.Enable | Runtime/Ocean.cs:309-310 | the keyword joins the enabled set |
| OceanSystem.ShaderKeywords.Disable | Runtime/Ocean.cs:311-312 | the keyword leaves the enabled set |
| OceanSystem.Clamp01 | Runtime/Ocean.cs:427 | the lerp factor is clamped into [0, 1] and kept when already inside |
| OceanSystem.SpreadArgument | Runtime/Ocean.cs:423-427 | for a generated wave, i·(1/n) lies in [0, 1), so the lerp is not clamped and p = 0.1 + 1.8·i/n |
| OceanSystem.SpreadBounds | Runtime/Ocean.cs:423-427 | every generated wave's spread factor lies in [0.1, 1.9) |
| OceanSystem.SpreadIncreasing | Runtime/Ocean.cs:423-427 | the spread factor is strictly increasing in the wave index |
| OceanSystem.SumOfEqualAmplitudes | Runtime/Ocean.cs:286-290 | waves of equal amplitude a sum to n·a, so their mean is a |
| OceanSystem.UniformSpectrumHeight | Runtime/Ocean.cs:286-292 | for a non-empty spectrum of equal amplitudes a, the maximum wave height is a floored at 0.5 |
| OceanSystem.MaxWaveHeight | Runtime/Ocean.cs:286-292 | the result is the mean amplitude floored at 0.5: at least 0.5 and at least the mean, equal to one of them; 0.5 for no waves |
| OceanSystem.SelectedReflectionKeywords | Runtime/Ocean.cs:305-313 | after the selection, the enabled reflection keywords are exactly the selected type's keyword |
| OceanSystem.SetReflectionKeywords | Runtime/Ocean.cs:305-313 | each declared type's keyword is enabled iff it is the selected type; no other keyword changes |
| OceanSystem.SetSsrKeywords | Runtime/Ocean.cs:315-337 | with SSR selected, HIGH is on iff the steps are High and MEDIUM iff Medium; otherwise nothing changes; no other keyword is touched |
| OceanSystem.SetDebugMode | Runtime/Ocean.cs:241-252 | the debug keyword is on iff the mode is not `none`; no other keyword changes |
| OceanSystem.OtherKeywordsAreNotReflectionKeywords | Runtime/Ocean.cs:315-359 | the SSR, structured-buffer and debug keywords are none of the reflection keywords, and the structured-buffer keyword is neither SSR keyword |
| OceanSystem.NextWave | Runtime/Ocean.cs:427-430 | wave i is built from the spread factor and the three draws after seeding with `randomSeed + i`, leaving the generator three draws on |
| OceanSystem.GenerateWaves | Runtime/Ocean.cs:425-433 | wave i of n is `GeneratedWave` of the seed schedule `randomSeed + i`, and entries past n are kept; n larger than the array fails with IndexOutOfRange after the three draws of wave `Length` |
| OceanSystem.AllocateWaveData | Runtime/Ocean.cs:418-421 | a fresh wave array of `waveCount` entries, or ArgumentOutOfRange for a negative count |
| OceanSystem.UpdateComputeBuffer | Runtime/Ocean.cs:339-360 | the flag stays set iff it was set and waveCount·12 fits the graphics buffer limit; the structured-buffer keyword follows it; nothing else changes |
| OceanSystem.Ocean.constructor | Runtime/Ocean.cs:104-105 | the settings, the debug mode and the compute-buffer flag as given |
| OceanSystem.Ocean.SetupWaves | Runtime/Ocean.cs:408-436 | the generator's state is restored, so the spectrum depends only on the settings; the wave array is allocated only when missing; wave i follows the seed schedule; a negative count or an overrun of a reused array fails, leaving the generator unrestored |
| OceanSystem.Ocean.SetReflectionState | Runtime/Ocean.cs:305-337 | only the selected reflection keyword is on among the four, the SSR keywords follow the steps when SSR is selected, and no other keyword changes |
| OceanSystem.NewComputeBuffer | Runtime/Ocean.cs:353 | creating the compute buffer throws an ArgumentException exactly when the wave count is not positive |
| OceanSystem.Ocean.PublishWaves | Runtime/Ocean.cs:286-360 | the maximum wave height is the floored mean amplitude, the reflection and SSR keywords are selected, the compute-buffer flag is kept only when the waves fit and the structured-buffer keyword follows it; the buffer creation then fails exactly when the flag is set and there are no waves; no other keyword changes |
| OceanSystem.Ocean.SetWaves | Runtime/Ocean.cs:276-373 | the setup passes exactly when SetupWaves does; after it, the spectrum is the settings' generated one, the generator is restored, the maximum wave height is the floored mean amplitude, the reflection and SSR keywords are selected, the compute-buffer flag is only ever cleared and the structured-buffer keyword follows it, and the call fails at the compute buffer exactly when the flag is set and there are no waves; no keyword changes when the setup fails |
| OceanSystem.Ocean.StartSampler | Runtime/Ocean.cs:226-230 | the debug keyword follows the debug mode and no other keyword changes; the sampler ends initialised, keeping its buffers when it already was, with the wave array and the registry untouched |
| OceanSystem.Ocean.Init | Runtime/Ocean.cs:216-231 | everything SetWaves establishes (spectrum, restored generator, floored maximum height, reflection and SSR keywords, compute-buffer flag and keyword, the zero-wave failure) still holds at the end; on success the debug keyword follows the debug mode and the sampler is initialised when it was not, keeping its buffers when it was; a failure leaves the debug keyword and the sampler's initialisation alone; the registry is untouched |

## Left out

- Floating point. `HeightJob.Execute` (trigonometry, square root, normalisation) is the parameter `kernel`. `Random.Range` is the parameter `draw`. The `2π/(l·p·r)` wavelength term, with its possible division by zero, is the parameter `angular`. `AnimationCurve.Evaluate` is the parameter `waveDepthProfile`. All float arithmetic is real arithmetic.
- Concurrency. Each parallel job is collapsed to one step. The height job writes at dispatch: outputs A are not observable until the swap in `CompleteJobs`. The conversion job of `LocalToWorldJob` writes when its handle completes. `JobHandle` and `ScheduleBatchedJobs` are not modelled.
- `#if ZERO` / `#if ZER0` code (the depth and opacity jobs, the wave list) is never compiled and is not modelled.
- Shader globals other than keywords are not modelled: `SetGlobalTexture`, `SetGlobalFloat`, `SetGlobalVector`, `SetGlobalInt`, `SetGlobalBuffer` and `SetGlobalVectorArray`.
- The GPU side of `SetWaves` (`Runtime/Ocean.cs:346-372`) is modelled only as far as the compute buffer's creation, which Unity refuses for zero waves. Disposing the old buffer, `SetData`, `SetGlobalBuffer` and the vector-array copy are GPU uploads and are not modelled. On the vector-array path an empty spectrum is taken to pass; whether Unity rejects an empty list there is not modelled.
- `GenerateColorRamp`, `PlanarReflections`, `LateUpdate`, `BeginCameraRendering` and `Ocean.Cleanup` are rendering and lifecycle glue and are not modelled. Unity lifecycle order is left to the caller.
- `WaterEvent.Update` first refreshes its point, calls the sampler's `UpdateSamplePoints` and `GetData`, and tests the normal. These calls are left out, and the normal test is the boolean `facingBelow`. `OnDrawGizmosSelected` is not modelled.
- `WaterLevelDebug.Update` (the same sampler calls) and `OnDrawGizmos` are not modelled.
- Disposal of native arrays is modelled as dropping the reference (`null`, or `dataCreated := false`). `LocalToWorldJob` instead records the arrays it disposes in the ghost set `disposed`. Use of a disposed `_data` is excluded by the `dataCreated` preconditions of `GerstnerWavesJobs.UpdateSamplePoints` and `GetData` instead of being modelled as an error. The one double dispose in the core, in `LocalToWorldJob.Cleanup`, is modelled as an ObjectDisposed failure.
- `LocalToWorld.LocalToWorldJob.Cleanup` disposes the world buffer, which is the output array the caller passed to `SetupJob` (`Runtime/LocalToWorldJob.cs:85`). The model records this in `disposed` but does not stop the caller from using that array afterwards. A caller that disposed the output first makes line 85 throw, which the model returns as a failure. The handle is completed before that and the `Processing` flag is never cleared by `Cleanup`, so the entry stays in flight.
- `GerstnerWaves.GerstnerWavesJobs.UpdateHeights`: the job reads the per-sample `_opacity` buffer, not the depth profile the source binds (see Findings). This correction assumes that the opacity job, which `#if ZER0` switches off (`Runtime/GerstnerWavesJobs.cs:195-216`), runs again. As compiled, nothing writes `_opacity`, which is uninitialised memory (`Runtime/GerstnerWavesJobs.cs:77`); the model leaves its contents unconstrained. It requires an initialised service and a created wave array: the caller `LateUpdate` guards the first, and `Ocean.Init` creates the second.
- `GerstnerWaves.GerstnerWavesJobs.UpdateHeightsAsWritten` has the same two preconditions. On a failing frame it states nothing about the outputs from index 32 up to the count, because the other workers' progress past the exception is not modelled.
- `GerstnerWaves.GerstnerWavesJobs.CompleteJobs` requires an initialised service, as its only caller `UpdateHeights` does.
- `GerstnerWaves.GerstnerWavesJobs.UpdateSamplePoints` requires, for a known id, at least as many points as its range and a created `_data`. The source would throw an index exception instead; that error path is not modelled.
- `GerstnerWaves.GerstnerWavesJobs.GetData` requires an output of exactly the slice's length, distinct from the internal buffers, and a created `_data`. `NativeSlice.CopyTo` throws on a length mismatch; that error path is not modelled.
- `LocalToWorld.LocalToWorldJob.SetupJob` requires an output at least as long as the positions. Otherwise the scheduled job would write past the output and throw on a worker thread; that path is not modelled.
- `WaterLevelDebugging.WaterLevelDebug.UpdateSamplePoints` does not model 32-bit wrap-around of `arrayCount.x * arrayCount.y`. The product is unbounded here, so it is negative exactly when one factor is negative and the other positive. It also requires that the grid's own buffer is not the sampler's positions B; the two are separate allocations in the source.
- `OceanSystem.UpdateComputeBuffer` does not model 32-bit wrap-around of `waveCount * 12`.
- `OceanSystem.Ocean.SetupWaves` reuses an existing wave array of a different length. Entries past `waveCount` keep the previous spectrum's waves, and this is stated but not flagged. `SetWaves` then averages over the whole array.

## Findings

| source | as written | input that shows it | evidently intended | confidence | as-written member | corrected member |
|---|---|---|---|---|---|---|
| Runtime/GerstnerWavesJobs.cs:228 | the height job's `Opacity` is the 32-entry `_depthProfile`, but `Execute` reads `Opacity[i]` for every sample index i < positionCount (lines 313 and 318) | one consumer registers 33 points into an empty registry (admitted, since 33 < 4096); the job then reads `Opacity[32]` | `Opacity` is the 4096-entry per-sample `_opacity` buffer, one value per sample, written by the opacity job that `#if ZER0` switches off (lines 195-216); without that job `_opacity` is uninitialised memory (line 77) | not executed; the read past the end follows from the cited lines | GerstnerWaves.AsWrittenJobOpacityOverrun | GerstnerWaves.GerstnerWavesJobs.UpdateHeights |

=== FILE: data.dfy ===
/**
 * The value types shared by the water system (Runtime/Data/Data.cs): sample
 * vectors, the kernel's output record, the reflection-type enumeration with its
 * shader keywords, the basic-wave descriptor and the ocean settings defaults.
 *
 * Single-precision floats are modelled as reals. C# enums are modelled as `int`,
 * because a C# enum variable may hold any integer, which is what makes the
 * `default` branch of GetReflectionKeyword reachable.
 */
module WaterData {
  import opened Wrappers

  /** Unity.Mathematics.float3. */
  datatype Vec3 = Vec3(x: real, y: real, z: real)

  /** Data.WaveOutputData: the displaced position and the normal of one sample. */
  datatype WaveOutputData = WaveOutputData(position: Vec3, normal: Vec3)

  // Data.ReflectionType, in declaration order.
  const Cubemap: int := 0
  const ReflectionProbe: int := 1
  const ScreenSpaceReflection: int := 2
  const PlanarReflection: int := 3
  /** Enum.GetValues(typeof(ReflectionType)).Length */
  const ReflectionTypeCount: int := 4

  predicate IsReflectionType(t: int) { 0 <= t < ReflectionTypeCount }

  // Data.SSRSteps
  const SsrLow: int := 8
  const SsrMedium: int := 16
  const SsrHigh: int := 32

  // The reflection shader keywords.
  const KeyRefCubemap: string := "_REFLECTION_CUBEMAP"
  const KeyRefProbe: string := "_REFLECTION_PROBES"
  const KeyRefPlanar: string := "_REFLECTION_PLANARREFLECTION"
  const KeyRefSSR: string := "_REFLECTION_SSR"

  const ReflectionKeywords: set<string> := {KeyRefCubemap, KeyRefProbe, KeyRefPlanar, KeyRefSSR}

  /**
   * The keyword that selects a reflection type in the water shader; any value
   * outside the four declared members raises ArgumentOutOfRangeException.
   */
  function GetReflectionKeyword(t: int): (r: Result<string>)
    ensures r.Success? <==> IsReflectionType(t)
    ensures r.Success? ==> r.value in ReflectionKeywords
    ensures r.Failure? ==> r.error == ArgumentOutOfRange
  {
    if t == Cubemap then Success(KeyRefCubemap)
    else if t == ReflectionProbe then Success(KeyRefProbe)
    else if t == PlanarReflection then Success(KeyRefPlanar)
    else if t == ScreenSpaceReflection then Success(KeyRefSSR)
    else Failure(ArgumentOutOfRange)
  }

  /** The mapping pairs each declared type with its own keyword. */
  lemma ReflectionKeywordTable()
    ensures GetReflectionKeyword(Cubemap) == Success("_REFLECTION_CUBEMAP")
    ensures GetReflectionKeyword(ReflectionProbe) == Success("_REFLECTION_PROBES")
    ensures GetReflectionKeyword(PlanarReflection) == Success("_REFLECTION_PLANARREFLECTION")
    ensures GetReflectionKeyword(ScreenSpaceReflection) == Success("_REFLECTION_SSR")
  {
  }

  /** Distinct reflection types get distinct keywords, so each keyword selects one type. */
  lemma ReflectionKeywordInjective(a: int, b: int)
    requires IsReflectionType(a) && IsReflectionType(b)
    requires GetReflectionKeyword(a) == GetReflectionKeyword(b)
    ensures a == b
  {
    var ka, kb := GetReflectionKeyword(a).value, GetReflectionKeyword(b).value;
    // The keywords already differ in their first distinguishing character.
    assert KeyRefCubemap[12] == 'C' && KeyRefProbe[12] == 'P' && KeyRefPlanar[12] == 'P' && KeyRefSSR[12] == 'S';
    assert KeyRefProbe[13] == 'R' && KeyRefPlanar[13] == 'L';
  }

  /** The four keywords are exactly the images of the four reflection types. */
  lemma ReflectionKeywordsCovered(k: string)
    requires k in ReflectionKeywords
    ensures exists t :: IsReflectionType(t) && GetReflectionKeyword(t) == Success(k)
  {
    if k == KeyRefCubemap { assert GetReflectionKeyword(Cubemap) == Success(k); }
    else if k == KeyRefProbe { assert GetReflectionKeyword(ReflectionProbe) == Success(k); }
    else if k == KeyRefPlanar { assert GetReflectionKeyword(PlanarReflection) == Success(k); }
    else { assert GetReflectionKeyword(ScreenSpaceReflection) == Success(k); }
  }

  /**
   * Data.BasicWaves: the descriptor from which the wave spectrum is generated.
   * The float fields are reals.
   */
  datatype BasicWaves = BasicWaves(waveCount: int, amplitude: real, direction: real, wavelength: real)

  /** The BasicWaves(amp, dir, len) constructor: the count is always six. */
  function NewBasicWaves(amp: real, dir: real, len: real): (b: BasicWaves)
    ensures b.waveCount == 6
    ensures b.amplitude == amp && b.direction == dir && b.wavelength == len
  {
    BasicWaves(6, amp, dir, len)
  }

  /**
   * The part of Data.OceanSettings (with its SSRSettings) that the modelled code
   * reads: the reflection type, the SSR step count, the seed and the basic waves.
   */
  datatype OceanSettings = OceanSettings(refType: int, ssrSteps: int, randomSeed: int, basicWaveSettings: BasicWaves)

  /** The field initialisers of OceanSettings and SSRSettings. */
  function DefaultOceanSettings(): (s: OceanSettings)
    ensures s.refType == ScreenSpaceReflection && GetReflectionKeyword(s.refType) == Success(KeyRefSSR)
    ensures s.ssrSteps == SsrLow
    ensures s.randomSeed == 3234
    ensures s.basicWaveSettings.waveCount == 6
    ensures s.basicWaveSettings.amplitude == 0.5 && s.basicWaveSettings.direction == 45.0 && s.basicWaveSettings.wavelength == 5.0
  {
    OceanSettings(ScreenSpaceReflection, SsrLow, 3234, NewBasicWaves(0.5, 45.0, 5.0))
  }
}

=== FILE: gerstner_waves_jobs.dfy ===
/**
 * The CPU wave-sampling service (Runtime/GerstnerWavesJobs.cs): a process-wide
 * set of sample buffers carved out of one allocation, the consumer registry
 * that hands out ranges of them, and the double-buffered scheduler that runs
 * the Gerstner height job over positions A into outputs A while consumers write
 * positions B and read outputs B.
 *
 * The C# class is static; here its state is one object of class
 * GerstnerWavesJobs whose constructor gives the static initial values.
 */
module GerstnerWaves {
  import opened Wrappers
  import opened WaterData
  import opened SampleRegistry

  /** `depthProfileCount`: the number of entries of the depth profile. */
  const DepthProfileCount: int := 32

  /** A sub-array of `_data`, in floats. */
  datatype Segment = Segment(start: int, length: int) {
    function End(): int { start + length }
  }

  /** The length of `_data` in floats: 3S + 3S + 6S + 6S + S + D. */
  function DataLength(sampleCount: nat, depthProfileCount: nat): int
  {
    3 * sampleCount + 3 * sampleCount + 6 * sampleCount + 6 * sampleCount + sampleCount + depthProfileCount
  }

  /**
   * The views Init takes of `_data`, in order: positions A and B (three floats
   * per sample), outputs A and B (six floats per sample), the opacity buffer and
   * the depth profile. Each view starts where the previous one ends.
   */
  function InitLayout(sampleCount: nat, depthProfileCount: nat): seq<Segment>
  {
    var positionsA := Segment(0, 3 * sampleCount);
    var positionsB := Segment(positionsA.End(), 3 * sampleCount);
    var wavesA := Segment(positionsB.End(), 6 * sampleCount);
    var wavesB := Segment(wavesA.End(), 6 * sampleCount);
    var opacity := Segment(wavesB.End(), sampleCount);
    var depthProfile := Segment(opacity.End(), depthProfileCount);
    [positionsA, positionsB, wavesA, wavesB, opacity, depthProfile]
  }

  /** Float f of `_data` lies in the view seg. */
  predicate InSegment(seg: Segment, f: int)
  {
    seg.start <= f < seg.End()
  }

  /** Float f of `_data` lies in one of the six views. */
  ghost predicate Owned(s: nat, d: nat, f: int)
  {
    exists k :: 0 <= k < 6 && InSegment(InitLayout(s, d)[k], f)
  }

  /**
   * The six views are consecutive, start at 0 and end at the end of `_data`,
   * so every float of `_data` belongs to exactly one view; with S = 4096 they are
   * [0,3S), [3S,6S), [6S,12S), [12S,18S), [18S,19S) and [19S,19S+32).
   */
  lemma {:induction false} InitLayoutPartitionsData(s: nat, d: nat)
    ensures |InitLayout(s, d)| == 6
    ensures InitLayout(s, d)[0].start == 0 && InitLayout(s, d)[5].End() == DataLength(s, d)
    ensures forall k :: 0 <= k < 5 ==> InitLayout(s, d)[k].End() == InitLayout(s, d)[k + 1].start
    ensures forall k :: 0 <= k < 6 ==> InitLayout(s, d)[k].length >= 0
    ensures forall f :: 0 <= f < DataLength(s, d) ==> Owned(s, d, f)
    ensures forall f :: f < 0 || DataLength(s, d) <= f ==> !Owned(s, d, f)
    ensures forall f, k, j :: 0 <= k < j < 6 && InSegment(InitLayout(s, d)[k], f) ==> !InSegment(InitLayout(s, d)[j], f)
    ensures s == SampleCount && d == DepthProfileCount ==>
              InitLayout(s, d) == [Segment(0, 3 * 4096), Segment(3 * 4096, 3 * 4096), Segment(6 * 4096, 6 * 4096),
                                   Segment(12 * 4096, 6 * 4096), Segment(18 * 4096, 4096), Segment(19 * 4096, 32)]
  {
    var l := InitLayout(s, d);
    forall f | 0 <= f < DataLength(s, d)
      ensures Owned(s, d, f)
    {
      var k := if f < l[1].start then 0 else if f < l[2].start then 1 else if f < l[3].start then 2
               else if f < l[4].start then 3 else if f < l[5].start then 4 else 5;
      assert InSegment(l[k], f);
    }
  }

  /**
   * The per-sample Gerstner evaluation (HeightJob.Execute), left abstract: its
   * arguments are the sample position, its opacity, the time, the vertical
   * offset of the water and the wave spectrum.
   */
  type HeightKernel = (Vec3, real, real, real, seq<Vec3>) -> WaveOutputData

  /**
   * HeightJob over [0, count) with the per-sample opacity buffer: sample i is
   * the kernel of its own position and opacity, and the slots from count on are
   * untouched. The worker threads are collapsed into one parallel assignment.
   */
  method HeightJob(position: array<Vec3>, opacity: array<real>, output: array<WaveOutputData>, count: int,
                   time: real, waveLevelOffset: real, waves: seq<Vec3>, kernel: HeightKernel)
    requires 0 <= count <= position.Length && count <= opacity.Length && count <= output.Length
    modifies output
    ensures forall i :: 0 <= i < count ==>
              output[i] == kernel(position[i], opacity[i], time, waveLevelOffset, waves)
    ensures forall i :: count <= i < output.Length ==> output[i] == old(output[i])
  {
    forall i | 0 <= i < count {
      output[i] := kernel(position[i], opacity[i], time, waveLevelOffset, waves);
    }
  }

  /**
   * HeightJob as UpdateHeights binds it: `Opacity` is the 32-entry depth
   * profile, yet sample i reads `Opacity[i]`. Every sample below both the count
   * and the profile's length is written as above; when the count passes the
   * profile's end, the read of index 32 throws IndexOutOfRange inside the job.
   * The slots from count on are untouched either way.
   */
  method HeightJobAsWritten(position: array<Vec3>, depthProfile: array<real>, output: array<WaveOutputData>,
                            count: int, time: real, waveLevelOffset: real, waves: seq<Vec3>, kernel: HeightKernel)
    returns (o: Outcome)
    requires 0 <= count <= position.Length && count <= output.Length
    modifies output
    ensures o.Fail? <==> count > depthProfile.Length
    ensures o.Fail? ==> o.error == IndexOutOfRange
    ensures forall i :: 0 <= i < count && i < depthProfile.Length ==>
              output[i] == kernel(position[i], depthProfile[i], time, waveLevelOffset, waves)
    ensures forall i :: count <= i < output.Length ==> output[i] == old(output[i])
  {
    var readable := if count <= depthProfile.Length then count else depthProfile.Length;
    forall i | 0 <= i < readable {
      output[i] := kernel(position[i], depthProfile[i], time, waveLevelOffset, waves);
    }
    if count > depthProfile.Length {
      return Fail(IndexOutOfRange);
    }
    o := Pass;
  }

  /** Six views that exist, have the lengths Init gives them, and whose A/B pairs are distinct. */
  predicate Views(posA: array?<Vec3>, posB: array?<Vec3>, outA: array?<WaveOutputData>, outB: array?<WaveOutputData>,
                  opa: array?<real>, profile: array?<real>)
  {
    && posA != null && posB != null && outA != null && outB != null && opa != null && profile != null
    && posA.Length == SampleCount && posB.Length == SampleCount
    && outA.Length == SampleCount && outB.Length == SampleCount
    && opa.Length == SampleCount && profile.Length == DepthProfileCount
    && posA != posB && outA != outB
  }

  /**
   * `_data`: the single allocation behind the six views. Its constructor is the
   * allocation and carving of Init; the views are the sub-arrays InitLayout
   * places, each a distinct buffer here, uninitialised.
   */
  class NativeData {
    const positionsA: array<Vec3>
    const positionsB: array<Vec3>
    const wavesA: array<WaveOutputData>
    const wavesB: array<WaveOutputData>
    const opacity: array<real>
    const depthProfile: array<real>

    constructor (waveDepthProfile: real -> real)
      ensures Views(positionsA, positionsB, wavesA, wavesB, opacity, depthProfile)
      ensures fresh(positionsA) && fresh(positionsB) && fresh(wavesA) && fresh(wavesB)
      ensures fresh(opacity) && fresh(depthProfile)
      ensures forall i :: 0 <= i < DepthProfileCount ==>
                depthProfile[i] == waveDepthProfile(i as real / DepthProfileCount as real)
    {
      positionsA := new Vec3[SampleCount];
      positionsB := new Vec3[SampleCount];
      wavesA := new WaveOutputData[SampleCount];
      wavesB := new WaveOutputData[SampleCount];
      opacity := new real[SampleCount];
      var profile := new real[DepthProfileCount];
      FillDepthProfile(profile, waveDepthProfile);
      depthProfile := profile;
    }
  }

  /** The depth-profile loop of Init: entry i samples the curve at i/32. */
  method FillDepthProfile(profile: array<real>, waveDepthProfile: real -> real)
    requires profile.Length == DepthProfileCount
    modifies profile
    ensures forall i :: 0 <= i < DepthProfileCount ==>
              profile[i] == waveDepthProfile(i as real / DepthProfileCount as real)
  {
    for i := 0 to DepthProfileCount
      invariant forall k :: 0 <= k < i ==> profile[k] == waveDepthProfile(k as real / DepthProfileCount as real)
    {
      profile[i] := waveDepthProfile(i as real / DepthProfileCount as real);
    }
  }

  class GerstnerWavesJobs {
    var initialized: bool
    var firstFrame: bool
    var processing: bool
    /** `_data.IsCreated`: false before Init and after Cleanup disposed it. */
    var dataCreated: bool
    /** `_waveData`, allocated and written by Ocean.SetupWaves; null while not created. */
    var waveData: array?<Vec3>
    // The views of `_data`; null until the first Init.
    var samplePositionsA: array?<Vec3>
    var samplePositionsB: array?<Vec3>
    var gerstnerWavesA: array?<WaveOutputData>
    var gerstnerWavesB: array?<WaveOutputData>
    var opacity: array?<real>
    var depthProfile: array?<real>
    var positionCount: int
    var registry: Registry

    /** The views exist, have the lengths Init gives them and are distinct. */
    ghost predicate Buffers()
      reads this
    {
      Views(samplePositionsA, samplePositionsB, gerstnerWavesA, gerstnerWavesB, opacity, depthProfile)
    }

    /**
     * The service invariant: the registry tiles [0, positionCount) below the
     * capacity; before the first Init nothing can be registered; a job is only
     * in flight after the first frame.
     */
    ghost predicate Valid()
      reads this
    {
      && Inv(registry, positionCount)
      && (samplePositionsB != null ==> Buffers())
      && (samplePositionsB == null ==> registry == map[] && positionCount == 0 && !processing)
      && (dataCreated ==> samplePositionsB != null)
      && (initialized ==> dataCreated)
      && (processing ==> !firstFrame)
    }

    /**
     * Between the two states only the registry and the counter may have
     * changed: the flags, the buffer references, the contents of positions B
     * and the wave array are as they were.
     */
    twostate predicate OnlyRegistryChanged()
      reads this, samplePositionsB
    {
      && initialized == old(initialized) && dataCreated == old(dataCreated)
      && processing == old(processing) && firstFrame == old(firstFrame)
      && samplePositionsA == old(samplePositionsA) && samplePositionsB == old(samplePositionsB)
      && gerstnerWavesA == old(gerstnerWavesA) && gerstnerWavesB == old(gerstnerWavesB)
      && opacity == old(opacity) && depthProfile == old(depthProfile) && waveData == old(waveData)
      && (samplePositionsB != null ==> samplePositionsB[..] == old(samplePositionsB[..]))
    }

    /** `_samplePositionsB.Length`: 0 for a NativeArray that was never created. */
    function Capacity(): (c: int)
      reads this, samplePositionsB
      requires Valid()
      ensures c == 0 || c == SampleCount
    {
      if samplePositionsB == null then 0 else samplePositionsB.Length
    }

    /** The static field initialisers. */
    constructor ()
      ensures Valid()
      ensures !initialized && firstFrame && !processing && !dataCreated
      ensures registry == map[] && positionCount == 0
      ensures waveData == null && samplePositionsB == null
    {
      initialized, firstFrame, processing, dataCreated := false, true, false, false;
      waveData := null;
      samplePositionsA, samplePositionsB := null, null;
      gerstnerWavesA, gerstnerWavesB := null, null;
      opacity, depthProfile := null, null;
      positionCount := 0;
      registry := map[];
    }

    /**
     * Init: without an ocean nothing happens; otherwise the buffers are
     * allocated (uninitialised: their contents are unconstrained), the depth
     * profile is filled from the curve at i/32, and the service is marked
     * initialised. The registry and the scheduler flags are left as they are.
     */
    method Init(oceanPresent: bool, waveDepthProfile: real -> real)
      requires Valid()
      modifies this
      ensures Valid()
      ensures registry == old(registry) && positionCount == old(positionCount)
      ensures processing == old(processing) && firstFrame == old(firstFrame) && waveData == old(waveData)
      ensures !oceanPresent ==> unchanged(this)
      ensures oceanPresent ==> initialized && dataCreated && Buffers()
      ensures oceanPresent ==> fresh(samplePositionsA) && fresh(samplePositionsB) && fresh(gerstnerWavesA)
                               && fresh(gerstnerWavesB) && fresh(opacity) && fresh(depthProfile)
      ensures oceanPresent ==> forall i :: 0 <= i < DepthProfileCount ==>
                                 depthProfile[i] == waveDepthProfile(i as real / DepthProfileCount as real)
    {
      if !oceanPresent {
        return;
      }
      var data := new NativeData(waveDepthProfile);
      Attach(data);
      initialized := true;
    }

    /**
     * The view assignments of Init: the static fields now name the views of a
     * freshly created `_data`; nothing else changes.
     */
    method Attach(data: NativeData)
      requires Valid()
      requires Views(data.positionsA, data.positionsB, data.wavesA, data.wavesB, data.opacity, data.depthProfile)
      modifies this
      ensures Valid() && dataCreated
      ensures samplePositionsA == data.positionsA && samplePositionsB == data.positionsB
      ensures gerstnerWavesA == data.wavesA && gerstnerWavesB == data.wavesB
      ensures opacity == data.opacity && depthProfile == data.depthProfile
      ensures registry == old(registry) && positionCount == old(positionCount)
      ensures processing == old(processing) && firstFrame == old(firstFrame)
      ensures initialized == old(initialized) && waveData == old(waveData)
    {
      ghost var reg, count := registry, positionCount;
      assert Inv(reg, count);
      samplePositionsA, samplePositionsB := data.positionsA, data.positionsB;
      gerstnerWavesA, gerstnerWavesB := data.wavesA, data.wavesB;
      opacity, depthProfile := data.opacity, data.depthProfile;
      dataCreated := true;
      assert registry == reg && positionCount == count;
      assert Buffers();
    }

    /**
     * Cleanup: the in-flight job is completed (its writes were already made at
     * dispatch in this model), `_data` is disposed if it was created, and the
     * service is no longer initialised. The registry is kept.
     */
    method Cleanup()
      requires Valid()
      modifies this
      ensures Valid()
      ensures !initialized && !dataCreated
      ensures registry == old(registry) && positionCount == old(positionCount)
      ensures processing == old(processing) && firstFrame == old(firstFrame)
      ensures samplePositionsB == old(samplePositionsB) && waveData == old(waveData)
    {
      if dataCreated {
        dataCreated := false;
      }
      initialized := false;
    }

    /**
     * UpdateSamplePoints: a known id overwrites its own slots of positions B
     * with the first Size() sample points; a new id is given the range
     * [positionCount, positionCount + n) when Admits allows it and is silently
     * dropped otherwise. Nothing but the registry, the counter and positions B
     * changes; a new id writes no positions.
     */
    method UpdateSamplePoints(samplePoints: seq<Vec3>, guid: int)
      requires Valid()
      requires guid in registry ==> dataCreated && |samplePoints| >= registry[guid].Size()
      modifies this, samplePositionsB
      ensures Valid()
      ensures initialized == old(initialized) && dataCreated == old(dataCreated)
      ensures processing == old(processing) && firstFrame == old(firstFrame)
      ensures samplePositionsA == old(samplePositionsA) && samplePositionsB == old(samplePositionsB)
      ensures gerstnerWavesA == old(gerstnerWavesA) && gerstnerWavesB == old(gerstnerWavesB)
      ensures opacity == old(opacity) && depthProfile == old(depthProfile) && waveData == old(waveData)
      ensures guid in old(registry) ==>
                && registry == old(registry) && positionCount == old(positionCount)
                && forall k :: 0 <= k < SampleCount ==>
                     samplePositionsB[k] == if old(registry)[guid].x <= k < old(registry)[guid].y
                                            then samplePoints[k - old(registry)[guid].x]
                                            else old(samplePositionsB[k])
      ensures guid !in old(registry) ==>
                && (samplePositionsB != null ==> samplePositionsB[..] == old(samplePositionsB[..]))
                && if Admits(old(positionCount), |samplePoints|, old(Capacity()))
                   then registry == old(registry)[guid := Range(old(positionCount), old(positionCount) + |samplePoints|)]
                        && positionCount == old(positionCount) + |samplePoints|
                   else registry == old(registry) && positionCount == old(positionCount)
    {
      if guid in registry {
        var offsets := registry[guid];
        RegisteredInBounds(registry, positionCount, guid);
        var i := offsets.x;
        while i < offsets.y
          modifies samplePositionsB
          invariant offsets.x <= i <= offsets.y
          invariant forall k :: 0 <= k < SampleCount ==>
                      samplePositionsB[k] == if offsets.x <= k < i then samplePoints[k - offsets.x]
                                             else old(samplePositionsB[k])
        {
          samplePositionsB[i] := samplePoints[i - offsets.x];
          i := i + 1;
        }
      } else {
        if positionCount + |samplePoints| >= Capacity() {
          return;
        }
        ReservePreservesInv(registry, positionCount, guid, |samplePoints|);
        registry := registry[guid := Range(positionCount, positionCount + |samplePoints|)];
        positionCount := positionCount + |samplePoints|;
      }
    }

    /**
     * RemoveSamplePoints: an absent id changes nothing; otherwise the id is
     * deleted, every range starting after the removed start moves down by the
     * removed size, and the counter drops by that size. Buffer contents do not
     * move.
     */
    method RemoveSamplePoints(guid: int)
      requires Valid()
      modifies this
      ensures Valid() && OnlyRegistryChanged()
      ensures guid !in old(registry) ==> registry == old(registry) && positionCount == old(positionCount)
      ensures guid in old(registry) ==>
                registry == Removed(old(registry), guid)
                && positionCount == old(positionCount) - old(registry)[guid].Size()
      ensures guid !in registry
    {
      if guid !in registry {
        return;
      }
      var offsets := registry[guid];
      var min := offsets.x;
      var size := offsets.y - min;
      RemovePreservesInv(registry, positionCount, guid);
      registry := registry - {guid};
      ShiftEntriesAfter(min, size);
      positionCount := positionCount - size;
    }

    /**
     * The key-shifting loop of RemoveSamplePoints: each entry is visited once
     * and moved down by size when it starts after min.
     */
    method ShiftEntriesAfter(min: int, size: int)
      modifies this`registry
      ensures registry == ShiftedAll(old(registry), min, size)
    {
      ghost var before := registry;
      var keys := registry.Keys;
      while keys != {}
        invariant keys <= registry.Keys && registry.Keys == before.Keys
        invariant forall k :: k in registry ==>
                    registry[k] == if k in keys then before[k] else Shifted(before[k], min, size)
        decreases keys
      {
        SomeKey(keys);
        var k :| k in keys;
        var entry := registry[k];
        if entry.x > min {
          entry := Range(entry.x - size, entry.y - size);
        }
        registry := registry[k := entry];
        keys := keys - {k};
      }
      ShiftedAllByEntries(before, registry, min, size);
    }

    /**
     * GetData: an absent id leaves the caller's array alone; otherwise the
     * array receives exactly the id's slice of outputs B. The copy demands an
     * array of the slice's length.
     */
    method GetData(guid: int, output: array<WaveOutputData>)
      requires Valid()
      requires guid in registry ==> dataCreated && output.Length == registry[guid].Size()
      requires output != gerstnerWavesA && output != gerstnerWavesB
      modifies output
      ensures guid !in registry ==> output[..] == old(output[..])
      ensures guid in registry ==>
                && 0 <= registry[guid].x <= registry[guid].y <= positionCount < SampleCount
                && output[..] == gerstnerWavesB[registry[guid].x .. registry[guid].y]
    {
      if guid !in registry {
        return;
      }
      var offsets := registry[guid];
      RegisteredInBounds(registry, positionCount, guid);
      forall k | 0 <= k < output.Length {
        output[k] := gerstnerWavesB[offsets.x + k];
      }
    }

    /**
     * CompleteJobs: unless it is the first frame or nothing is in flight, the
     * job is completed, the output buffers trade places and positions A become
     * a copy of positions B. Afterwards no job is in flight.
     */
    method CompleteJobs()
      requires Valid() && initialized
      modifies this, samplePositionsA
      ensures Valid() && !processing
      ensures initialized == old(initialized) && dataCreated == old(dataCreated) && firstFrame == old(firstFrame)
      ensures registry == old(registry) && positionCount == old(positionCount)
      ensures samplePositionsA == old(samplePositionsA) && samplePositionsB == old(samplePositionsB)
      ensures opacity == old(opacity) && depthProfile == old(depthProfile) && waveData == old(waveData)
      ensures old(firstFrame || !processing) ==>
                && gerstnerWavesA == old(gerstnerWavesA) && gerstnerWavesB == old(gerstnerWavesB)
                && samplePositionsA[..] == old(samplePositionsA[..])
      ensures old(!firstFrame && processing) ==>
                && gerstnerWavesA == old(gerstnerWavesB) && gerstnerWavesB == old(gerstnerWavesA)
                && samplePositionsA[..] == samplePositionsB[..]
    {
      if firstFrame || !processing {
        return;
      }
      gerstnerWavesA, gerstnerWavesB := gerstnerWavesB, gerstnerWavesA;
      forall k | 0 <= k < samplePositionsA.Length {
        samplePositionsA[k] := samplePositionsB[k];
      }
      processing := false;
    }

    /**
     * UpdateHeights with the job reading the per-sample opacity buffer:
     * completes the previous job, then, when an ocean exists, runs the height
     * job over [0, positionCount) from positions A and `_opacity` into outputs
     * A and marks it in flight. UpdateHeightsAsWritten below is the binding the
     * source has.
     */
    method UpdateHeights(oceanPresent: bool, time: real, waveLevelOffset: real, kernel: HeightKernel)
      requires Valid() && initialized && waveData != null
      modifies this, samplePositionsA, gerstnerWavesA, gerstnerWavesB
      ensures Valid()
      ensures initialized && dataCreated == old(dataCreated)
      ensures registry == old(registry) && positionCount == old(positionCount)
      ensures samplePositionsA == old(samplePositionsA) && samplePositionsB == old(samplePositionsB)
      ensures opacity == old(opacity) && depthProfile == old(depthProfile) && waveData == old(waveData)
      ensures old(!firstFrame && processing) ==>
                && gerstnerWavesA == old(gerstnerWavesB) && gerstnerWavesB == old(gerstnerWavesA)
                && samplePositionsA[..] == samplePositionsB[..]
      ensures old(firstFrame || !processing) ==>
                && gerstnerWavesA == old(gerstnerWavesA) && gerstnerWavesB == old(gerstnerWavesB)
                && samplePositionsA[..] == old(samplePositionsA[..])
      ensures gerstnerWavesB[..] == if old(!firstFrame && processing) then old(gerstnerWavesA[..]) else old(gerstnerWavesB[..])
      ensures !oceanPresent ==> !processing && firstFrame == old(firstFrame)
      ensures !oceanPresent ==>
                gerstnerWavesA[..] == if old(!firstFrame && processing) then old(gerstnerWavesB[..]) else old(gerstnerWavesA[..])
      ensures oceanPresent ==> processing && !firstFrame
      ensures oceanPresent ==> forall i :: positionCount <= i < SampleCount ==>
                gerstnerWavesA[i] == if old(!firstFrame && processing) then old(gerstnerWavesB[i]) else old(gerstnerWavesA[i])
      ensures oceanPresent ==> forall i :: 0 <= i < positionCount ==>
                gerstnerWavesA[i] == kernel(samplePositionsA[i], opacity[i], time, waveLevelOffset, waveData[..])
    {
      CompleteJobs();

      if processing {
        // CompleteJobs always leaves processing cleared, so this return never fires.
        assert false;
        return;
      }

      if !oceanPresent {
        return;
      }

      processing := true;
      HeightJob(samplePositionsA, opacity, gerstnerWavesA, positionCount, time, waveLevelOffset, waveData[..], kernel);
      firstFrame := false;
    }

    /**
     * UpdateHeights as the source binds the job (`Opacity = _depthProfile`):
     * the same completion, flags and untouched slots as UpdateHeights, but
     * sample i is computed from depth-profile entry i, and the job throws
     * IndexOutOfRange exactly when an ocean exists and more than 32 samples
     * are registered. The exception is raised on a worker thread, so the frame's
     * bookkeeping (`_processing`, `_firstFrame`) goes ahead regardless.
     */
    method UpdateHeightsAsWritten(oceanPresent: bool, time: real, waveLevelOffset: real, kernel: HeightKernel)
      returns (o: Outcome)
      requires Valid() && initialized && waveData != null
      modifies this, samplePositionsA, gerstnerWavesA, gerstnerWavesB
      ensures Valid()
      ensures initialized && dataCreated == old(dataCreated)
      ensures registry == old(registry) && positionCount == old(positionCount)
      ensures samplePositionsA == old(samplePositionsA) && samplePositionsB == old(samplePositionsB)
      ensures opacity == old(opacity) && depthProfile == old(depthProfile) && waveData == old(waveData)
      ensures old(!firstFrame && processing) ==>
                && gerstnerWavesA == old(gerstnerWavesB) && gerstnerWavesB == old(gerstnerWavesA)
                && samplePositionsA[..] == samplePositionsB[..]
      ensures old(firstFrame || !processing) ==>
                && gerstnerWavesA == old(gerstnerWavesA) && gerstnerWavesB == old(gerstnerWavesB)
                && samplePositionsA[..] == old(samplePositionsA[..])
      ensures gerstnerWavesB[..] == if old(!firstFrame && processing) then old(gerstnerWavesA[..]) else old(gerstnerWavesB[..])
      ensures !oceanPresent ==> !processing && firstFrame == old(firstFrame)
      ensures !oceanPresent ==>
                gerstnerWavesA[..] == if old(!firstFrame && processing) then old(gerstnerWavesB[..]) else old(gerstnerWavesA[..])
      ensures oceanPresent ==> processing && !firstFrame
      ensures o.Fail? <==> oceanPresent && positionCount > DepthProfileCount
      ensures o.Fail? ==> o.error == IndexOutOfRange
      ensures oceanPresent ==> forall i :: positionCount <= i < SampleCount ==>
                gerstnerWavesA[i] == if old(!firstFrame && processing) then old(gerstnerWavesB[i]) else old(gerstnerWavesA[i])
      ensures oceanPresent ==> forall i :: 0 <= i < positionCount && i < DepthProfileCount ==>
                gerstnerWavesA[i] == kernel(samplePositionsA[i], depthProfile[i], time, waveLevelOffset, waveData[..])
    {
      CompleteJobs();

      if processing {
        // CompleteJobs always leaves processing cleared, so this return never fires.
        assert false;
        return Pass;
      }

      if !oceanPresent {
        return Pass;
      }

      processing := true;
      o := HeightJobAsWritten(samplePositionsA, depthProfile, gerstnerWavesA, positionCount,
                              time, waveLevelOffset, waveData[..], kernel);
      firstFrame := false;
    }
  }

  /**
   * The as-written binding fails on a reachable state: a fresh service is
   * initialised with an ocean, given a wave array, and one consumer registers
   * 33 points (admitted, since 33 < 4096); the next UpdateHeights then reads
   * depth-profile entry 32, one past its end.
   */
  method AsWrittenJobOpacityOverrun(waveDepthProfile: real -> real, kernel: HeightKernel) returns (o: Outcome)
    ensures o == Fail(IndexOutOfRange)
  {
    var jobs := new GerstnerWavesJobs();
    jobs.Init(true, waveDepthProfile);
    jobs.waveData := new Vec3[0];
    jobs.UpdateSamplePoints(seq(33, _ => Vec3(0.0, 0.0, 0.0)), 1);
    assert jobs.positionCount == 33;
    o := jobs.UpdateHeightsAsWritten(true, 0.0, 0.0, kernel);
  }
}

=== FILE: local_to_world_job.dfy ===
/**
 * The per-object local-to-world conversion table (Runtime/LocalToWorldJob.cs):
 * each id owns a private copy of its local sample positions, the caller's world
 * buffer, the matrix of its last scheduled job and a `Processing` flag.
 *
 * The conversion job runs on worker threads between ScheduleJob and the
 * completion of its handle; here its writes are made atomically when the
 * handle completes (CompleteJob or Cleanup), which is the first point at which
 * the source lets anyone observe them.
 */
module LocalToWorld {
  import opened Wrappers
  import opened WaterData

  /** UnityEngine.Matrix4x4, row by row. */
  datatype Matrix4x4 = Matrix4x4(
    m00: real, m01: real, m02: real, m03: real,
    m10: real, m11: real, m12: real, m13: real,
    m20: real, m21: real, m22: real, m23: real,
    m30: real, m31: real, m32: real, m33: real)

  /** default(Matrix4x4): the matrix a job holds before it is first scheduled. */
  const ZeroMatrix: Matrix4x4 := Matrix4x4(0.0, 0.0, 0.0, 0.0, 0.0, 0.0, 0.0, 0.0,
                                           0.0, 0.0, 0.0, 0.0, 0.0, 0.0, 0.0, 0.0)

  /** The body of LocalToWorldConvertJob.Execute: (Matrix * float4(p, 1)).xyz. */
  function TransformPoint(m: Matrix4x4, p: Vec3): Vec3
  {
    Vec3(m.m00 * p.x + m.m01 * p.y + m.m02 * p.z + m.m03,
         m.m10 * p.x + m.m11 * p.y + m.m12 * p.z + m.m13,
         m.m20 * p.x + m.m21 * p.y + m.m22 * p.z + m.m23)
  }

  /**
   * Only the first three rows reach the result: w is set to 1 and dropped, so
   * the bottom row of the matrix never matters.
   */
  lemma TransformPointIgnoresBottomRow(m: Matrix4x4, n: Matrix4x4, p: Vec3)
    requires m.(m30 := 0.0, m31 := 0.0, m32 := 0.0, m33 := 0.0) == n.(m30 := 0.0, m31 := 0.0, m32 := 0.0, m33 := 0.0)
    ensures TransformPoint(m, p) == TransformPoint(n, p)
  {
  }

  /**
   * LocalToWorldConvertJob over all indices of the local buffer: index i of the
   * world buffer receives the transformed local point i, from that point and
   * the matrix alone; indices past the local buffer are not touched.
   */
  method Convert(local: array<Vec3>, world: array<Vec3>, m: Matrix4x4)
    requires local != world && local.Length <= world.Length
    modifies world
    ensures forall i :: 0 <= i < world.Length ==>
              world[i] == if i < local.Length then TransformPoint(m, local[i]) else old(world[i])
  {
    for i := 0 to local.Length
      invariant forall k :: 0 <= k < world.Length ==>
                  world[k] == if k < i then TransformPoint(m, local[k]) else old(world[k])
    {
      world[i] := TransformPoint(m, local[i]);
    }
  }

  /**
   * TransformLocalToWorld: one entry of the table. The two buffers are fixed
   * when the entry is created; the job's matrix and the flag change in place.
   */
  class TransformLocalToWorld {
    const positionsLocal: array<Vec3>
    const positionsWorld: array<Vec3>
    /** `Job.Matrix`: the matrix of the last scheduled conversion. */
    var matrix: Matrix4x4
    var processing: bool

    /** The buffers the conversion reads and writes are distinct and fit. */
    predicate Fits()
    {
      positionsLocal != positionsWorld && positionsLocal.Length <= positionsWorld.Length
    }

    /**
     * The object initialiser of SetupJob: a fresh local buffer holding a copy
     * of the positions, the caller's world buffer, no job in flight.
     */
    constructor (positions: seq<Vec3>, output: array<Vec3>)
      ensures fresh(positionsLocal) && positionsLocal[..] == positions
      ensures positionsWorld == output
      ensures matrix == ZeroMatrix && !processing
    {
      var local := new Vec3[|positions|];
      for i := 0 to |positions|
        invariant local[..i] == positions[..i]
      {
        local[i] := positions[i];
      }
      positionsLocal := local;
      positionsWorld := output;
      matrix := ZeroMatrix;
      processing := false;
    }

    /**
     * `Handle.Complete()` alone: a job in flight lands its writes with the
     * matrix it was scheduled with; otherwise the world buffer is left as it
     * is. The flag and the matrix are not touched.
     */
    method CompleteHandle()
      requires Fits()
      modifies positionsWorld
      ensures processing == old(processing) && matrix == old(matrix)
      ensures processing ==> forall i :: 0 <= i < positionsWorld.Length ==>
                positionsWorld[i] == if i < positionsLocal.Length then TransformPoint(matrix, positionsLocal[i])
                                     else old(positionsWorld[i])
      ensures !processing ==> positionsWorld[..] == old(positionsWorld[..])
    {
      if processing {
        Convert(positionsLocal, positionsWorld, matrix);
      }
    }

    /**
     * `Handle.Complete()` followed by clearing the flag, as CompleteJob does:
     * the handle's writes as above, and the entry is idle afterwards.
     */
    method Complete()
      requires Fits()
      modifies this, positionsWorld
      ensures !processing && matrix == old(matrix)
      ensures old(processing) ==> forall i :: 0 <= i < positionsWorld.Length ==>
                positionsWorld[i] == if i < positionsLocal.Length then TransformPoint(matrix, positionsLocal[i])
                                     else old(positionsWorld[i])
      ensures !old(processing) ==> positionsWorld[..] == old(positionsWorld[..])
    {
      CompleteHandle();
      processing := false;
    }
  }

  /** The static `Data` dictionary of LocalToWorldJob. */
  class LocalToWorldJob {
    var data: map<int, TransformLocalToWorld>
    /** The native arrays Cleanup has disposed, the caller's output among them. */
    ghost var disposed: set<object>

    /** Every entry's job writes only its own world buffer, within bounds. */
    ghost predicate Valid()
      reads this
    {
      forall id :: id in data ==> data[id].Fits()
    }

    constructor ()
      ensures Valid() && data == map[] && disposed == {}
    {
      data := map[];
      disposed := {};
    }

    /**
     * SetupJob: a new entry copies the positions and adopts the caller's
     * output as its world buffer; `Dictionary.Add` on an id already present
     * throws, leaving the table as it was. The job writes one world point per
     * local point, so the output must be at least as long as the positions.
     */
    method SetupJob(guid: int, positions: seq<Vec3>, output: array<Vec3>) returns (o: Outcome)
      requires Valid()
      requires |positions| <= output.Length
      modifies this
      ensures Valid()
      ensures o.Pass? <==> guid !in old(data)
      ensures o.Fail? ==> o.error == DuplicateKey && data == old(data)
      ensures disposed == old(disposed)
      ensures o.Pass? ==>
                && data.Keys == old(data.Keys) + {guid}
                && (forall id :: id in old(data) ==> data[id] == old(data)[id])
                && fresh(data[guid]) && fresh(data[guid].positionsLocal)
                && data[guid].positionsLocal[..] == positions && data[guid].positionsWorld == output
                && !data[guid].processing
    {
      var jobData := new TransformLocalToWorld(positions, output);
      if guid in data {
        return Fail(DuplicateKey);
      }
      data := data[guid := jobData];
      o := Pass;
    }

    /**
     * ScheduleJob: an unknown id throws (the dictionary indexer); an entry
     * whose job is in flight is left alone; otherwise the entry records the
     * new matrix and its job is in flight.
     */
    method ScheduleJob(guid: int, localToWorld: Matrix4x4) returns (o: Outcome)
      modifies if guid in data then {data[guid]} else {}
      ensures o.Pass? <==> guid in data
      ensures o.Fail? ==> o.error == KeyNotFound
      ensures guid in data && old(data[guid].processing) ==> unchanged(data[guid])
      ensures guid in data && !old(data[guid].processing) ==>
                data[guid].processing && data[guid].matrix == localToWorld
    {
      if guid !in data {
        return Fail(KeyNotFound);
      }
      var entry := data[guid];
      o := Pass;
      if entry.processing {
        return;
      }
      entry.matrix := localToWorld;
      entry.processing := true;
    }

    /**
     * CompleteJob: an unknown id throws; otherwise the entry's job is
     * completed, landing its writes if it was in flight, and the flag is
     * always cleared afterwards.
     */
    method CompleteJob(guid: int) returns (o: Outcome)
      requires Valid()
      modifies if guid in data then {data[guid], data[guid].positionsWorld} else {}
      ensures o.Pass? <==> guid in data
      ensures o.Fail? ==> o.error == KeyNotFound
      ensures guid in data ==> !data[guid].processing && data[guid].matrix == old(data[guid].matrix)
      ensures guid in data && old(data[guid].processing) ==>
                var e := data[guid];
                forall i :: 0 <= i < e.positionsWorld.Length ==>
                  e.positionsWorld[i] == if i < e.positionsLocal.Length then TransformPoint(e.matrix, e.positionsLocal[i])
                                         else old(e.positionsWorld[i])
      ensures guid in data && !old(data[guid].processing) ==>
                data[guid].positionsWorld[..] == old(data[guid].positionsWorld[..])
    {
      if guid !in data {
        return Fail(KeyNotFound);
      }
      var entry := data[guid];
      entry.Complete();
      o := Pass;
    }

    /**
     * Cleanup: an unknown id is ignored; otherwise the entry's handle is
     * completed (its flag is left as it was) and its world buffer disposed. That buffer is the caller's own
     * output array, and `outputDisposed` says whether the caller has already
     * disposed it; disposing it again throws ObjectDisposed before the local
     * buffer is disposed and before the entry is removed. Otherwise both
     * buffers are disposed and exactly that entry is removed.
     */
    method Cleanup(guid: int, outputDisposed: bool) returns (o: Outcome)
      requires Valid()
      modifies this, if guid in data then {data[guid].positionsWorld} else {}
      ensures Valid()
      ensures o.Fail? <==> guid in old(data) && outputDisposed
      ensures o.Fail? ==> o.error == ObjectDisposed && data == old(data) && disposed == old(disposed)
      ensures guid !in old(data) ==> data == old(data) && disposed == old(disposed)
      ensures guid in old(data) ==>
                var e := old(data)[guid];
                && e.processing == old(e.processing) && e.matrix == old(e.matrix)
                && (e.processing ==> forall i :: 0 <= i < e.positionsLocal.Length ==>
                                       e.positionsWorld[i] == TransformPoint(e.matrix, e.positionsLocal[i]))
      ensures o.Fail? ==> data[guid].processing == old(data[guid].processing) && data[guid].matrix == old(data[guid].matrix)
      ensures o.Pass? ==> data.Keys == old(data.Keys) - {guid}
      ensures forall id :: id in data ==> data[id] == old(data)[id]
      ensures o.Pass? && guid in old(data) ==>
                disposed == old(disposed) + {old(data)[guid].positionsWorld, old(data)[guid].positionsLocal}
    {
      if guid !in data {
        return Pass;
      }
      var value := data[guid];
      value.CompleteHandle();
      if outputDisposed {
        return Fail(ObjectDisposed);
      }
      disposed := disposed + {value.positionsWorld, value.positionsLocal};
      data := data - {guid};
      o := Pass;
    }
  }

  /**
   * The table's life cycle on one id: set up, schedule with m, complete. The
   * world buffer then holds the local points moved by m, and the entry is idle
   * again so that the next ScheduleJob takes effect.
   */
  method ScheduleThenComplete(table: LocalToWorldJob, guid: int, positions: seq<Vec3>, output: array<Vec3>, m: Matrix4x4)
    requires table.Valid() && guid !in table.data
    requires |positions| <= output.Length
    modifies table, output
    ensures table.Valid() && guid in table.data && !table.data[guid].processing
    ensures forall i :: 0 <= i < |positions| ==> output[i] == TransformPoint(m, positions[i])
  {
    var o := table.SetupJob(guid, positions, output);
    o := table.ScheduleJob(guid, m);
    o := table.CompleteJob(guid);
  }

  /**
   * Cleanup after the caller has already disposed its output, with a job in
   * flight: the second dispose fails, the entry stays in the table still in
   * flight, and a later ScheduleJob therefore leaves it alone.
   */
  method CleanupAfterDisposedOutput(table: LocalToWorldJob, guid: int, positions: seq<Vec3>, output: array<Vec3>,
                                    m: Matrix4x4, next: Matrix4x4) returns (o: Outcome)
    requires table.Valid() && guid !in table.data
    requires |positions| <= output.Length
    modifies table, output
    ensures o == Fail(ObjectDisposed)
    ensures guid in table.data && table.data[guid].processing && table.data[guid].matrix == m
  {
    var r := table.SetupJob(guid, positions, output);
    r := table.ScheduleJob(guid, m);
    o := table.Cleanup(guid, true);
    r := table.ScheduleJob(guid, next);
  }
}

=== FILE: ocean.dfy ===
/**
 * The ocean component (Runtime/Ocean.cs), in the parts that decide state: the
 * generation of the wave spectrum from the settings' seed, the maximum wave
 * height, the global shader keywords it selects, the compute-buffer flag, and
 * the guard around the sampler's initialisation.
 *
 * Unity's global random generator is an object whose state is the seed of the
 * last InitState and the number of draws since; the value of a draw is a
 * function of that state, passed in as `draw`. Shader keywords are the set of
 * globally enabled keyword names.
 */
module OceanSystem {
  import opened Wrappers
  import opened WaterData
  import opened GerstnerWaves

  /** UnityEngine.Random.State. */
  datatype RandomState = RandomState(seed: int, draws: nat)

  /** Random.Range(min, max) as a function of the generator's state. */
  type Draw = (RandomState, real, real) -> real

  /** UnityEngine.Random: one process-wide state. */
  class GlobalRandom {
    var state: RandomState

    constructor (initial: RandomState)
      ensures state == initial
    {
      state := initial;
    }

    /** Random.InitState(seed). */
    method InitState(seed: int)
      modifies this
      ensures state == RandomState(seed, 0)
    {
      state := RandomState(seed, 0);
    }

    /** Random.Range(min, max): one draw, which advances the state. */
    method Range(min: real, max: real, draw: Draw) returns (r: real)
      modifies this
      ensures r == draw(old(state), min, max)
      ensures state == RandomState(old(state).seed, old(state).draws + 1)
    {
      r := draw(state, min, max);
      state := RandomState(state.seed, state.draws + 1);
    }
  }

  /** The globally enabled shader keywords (Shader.EnableKeyword / DisableKeyword). */
  class ShaderKeywords {
    var enabled: set<string>

    constructor (initial: set<string>)
      ensures enabled == initial
    {
      enabled := initial;
    }

    method Enable(k: string)
      modifies this
      ensures enabled == old(enabled) + {k}
    {
      enabled := enabled + {k};
    }

    method Disable(k: string)
      modifies this
      ensures enabled == old(enabled) - {k}
    {
      enabled := enabled - {k};
    }
  }

  const KeySsrHigh: string := "_SSR_SAMPLES_HIGH"
  const KeySsrMedium: string := "_SSR_SAMPLES_MEDIUM"
  const KeyStructuredBuffer: string := "USE_STRUCTURED_BUFFER"
  const KeyDebugDisplay: string := "BOAT_ATTACK_WATER_DEBUG_DISPLAY"

  /** Mathf.Clamp01. */
  function Clamp01(t: real): (r: real)
    ensures 0.0 <= r <= 1.0
    ensures 0.0 <= t <= 1.0 ==> r == t
  {
    if t < 0.0 then 0.0 else if t > 1.0 then 1.0 else t
  }

  /** Mathf.Lerp(a, b, t). */
  function Lerp(a: real, b: real, t: real): real
  {
    a + (b - a) * Clamp01(t)
  }

  /** The spread factor of wave i of n: p = Lerp(0.1, 1.9, i * (1 / n)). */
  function Spread(i: int, n: int): real
    requires 0 < n
  {
    Lerp(0.1, 1.9, i as real * (1.0 / n as real))
  }

  /** For the waves that are generated, i * (1 / n) lies in [0, 1) and is not clamped. */
  lemma {:induction false} SpreadArgument(i: int, n: int)
    requires 0 <= i < n
    ensures 0.0 <= i as real * (1.0 / n as real) < 1.0
    ensures Spread(i, n) == 0.1 + 1.8 * (i as real * (1.0 / n as real))
  {
    var t := i as real * (1.0 / n as real);
    assert t == i as real / n as real;
    assert t * n as real == i as real;
  }

  /** Every generated wave's spread lies in [0.1, 1.9). */
  lemma {:induction false} SpreadBounds(i: int, n: int)
    requires 0 <= i < n
    ensures 0.1 <= Spread(i, n) < 1.9
  {
    SpreadArgument(i, n);
  }

  /** Later waves spread strictly more. */
  lemma {:induction false} SpreadIncreasing(i: int, j: int, n: int)
    requires 0 <= i < j < n
    ensures Spread(i, n) < Spread(j, n)
  {
    SpreadArgument(i, n);
    SpreadArgument(j, n);
    assert i as real * (1.0 / n as real) < j as real * (1.0 / n as real);
  }

  /**
   * One wave from its spread and its three draws: amplitude a·p·r1, direction
   * d + r2, and the wavelength term 2π/(l·p·r3), whose float arithmetic (π and
   * a division that may be by zero) is the parameter `angular`.
   */
  function WaveFrom(b: BasicWaves, p: real, r1: real, r2: real, r3: real, angular: real -> real): Vec3
  {
    Vec3(b.amplitude * p * r1, b.direction + r2, angular(b.wavelength * p * r3))
  }

  /**
   * Wave i of n as SetupWaves generates it: its three draws are the first
   * three after seeding the generator with `randomSeed + i`.
   */
  function GeneratedWave(settings: OceanSettings, i: int, n: int, draw: Draw, angular: real -> real): Vec3
    requires 0 <= i < n
  {
    var seed := settings.randomSeed + i;
    WaveFrom(settings.basicWaveSettings, Spread(i, n),
             draw(RandomState(seed, 0), 0.66, 1.24),
             draw(RandomState(seed, 1), -90.0, 90.0),
             draw(RandomState(seed, 2), 0.75, 1.2), angular)
  }

  /** The sum of the waves' first components (their amplitudes). */
  function SumAmplitudes(waves: seq<Vec3>): real
  {
    if |waves| == 0 then 0.0 else SumAmplitudes(waves[..|waves| - 1]) + waves[|waves| - 1].x
  }

  /** Waves that all have amplitude a sum to n·a. */
  lemma {:induction false} SumOfEqualAmplitudes(waves: seq<Vec3>, a: real)
    requires forall k :: 0 <= k < |waves| ==> waves[k].x == a
    ensures SumAmplitudes(waves) == |waves| as real * a
  {
    if |waves| > 0 {
      SumOfEqualAmplitudes(waves[..|waves| - 1], a);
    }
  }

  /**
   * The accumulator loop and floor of SetWaves: the result is the mean
   * amplitude when that is at least 0.5 and 0.5 otherwise. An empty array
   * gives 0/0, a NaN, and Mathf.Max(NaN, 0.5) is 0.5.
   */
  method MaxWaveHeight(waveData: array<Vec3>) returns (h: real)
    ensures h >= 0.5
    ensures waveData.Length == 0 ==> h == 0.5
    ensures waveData.Length > 0 ==>
              var mean := SumAmplitudes(waveData[..]) / waveData.Length as real;
              h >= mean && (h == mean || h == 0.5)
  {
    var total := 0.0;
    for i := 0 to waveData.Length
      invariant total == SumAmplitudes(waveData[..i])
    {
      assert waveData[..i + 1][..i] == waveData[..i];
      total := total + waveData[i].x;
    }
    assert waveData[..waveData.Length] == waveData[..];
    if waveData.Length == 0 {
      return 0.5;
    }
    var mean := total / waveData.Length as real;
    h := if mean > 0.5 then mean else 0.5;
  }

  /** Among the four reflection keywords, exactly the one of `refType` is on. */
  ghost predicate SelectsReflection(enabled: set<string>, refType: int)
  {
    forall t :: IsReflectionType(t) ==> (GetReflectionKeyword(t).value in enabled <==> t == refType)
  }

  /** Only the keywords in `touched` may differ between the two keyword sets. */
  ghost predicate SameOutside(enabled: set<string>, before: set<string>, touched: set<string>)
  {
    forall k :: k !in touched ==> (k in enabled <==> k in before)
  }

  /**
   * Selecting a reflection type leaves exactly its keyword on among the four
   * reflection keywords, and none of them for a value outside the enum.
   */
  lemma {:induction false} SelectedReflectionKeywords(enabled: set<string>, refType: int)
    requires SelectsReflection(enabled, refType)
    ensures IsReflectionType(refType) ==> enabled * ReflectionKeywords == {GetReflectionKeyword(refType).value}
    ensures !IsReflectionType(refType) ==> enabled * ReflectionKeywords == {}
  {
    forall k | k in enabled * ReflectionKeywords
      ensures IsReflectionType(refType) && k == GetReflectionKeyword(refType).value
    {
      ReflectionKeywordsCovered(k);
      var t :| IsReflectionType(t) && GetReflectionKeyword(t) == Success(k);
      assert GetReflectionKeyword(t).value in enabled;
    }
    if IsReflectionType(refType) {
      assert GetReflectionKeyword(refType).value in enabled;
    }
  }

  /**
   * The reflection loop of SetWaves: for each of the four types, its keyword is
   * enabled when it is the selected type and disabled otherwise; no other
   * keyword changes.
   */
  method SetReflectionKeywords(shader: ShaderKeywords, refType: int)
    modifies shader
    ensures SelectsReflection(shader.enabled, refType)
    ensures SameOutside(shader.enabled, old(shader.enabled), ReflectionKeywords)
  {
    for i := 0 to ReflectionTypeCount
      invariant forall t :: 0 <= t < i ==>
                  (GetReflectionKeyword(t).value in shader.enabled <==> t == refType)
      invariant forall t :: i <= t < ReflectionTypeCount ==>
                  (GetReflectionKeyword(t).value in shader.enabled <==> GetReflectionKeyword(t).value in old(shader.enabled))
      invariant SameOutside(shader.enabled, old(shader.enabled), ReflectionKeywords)
    {
      var keyword := GetReflectionKeyword(i).value;
      forall t | 0 <= t < ReflectionTypeCount && t != i
        ensures GetReflectionKeyword(t).value != keyword
      {
        if GetReflectionKeyword(t) == GetReflectionKeyword(i) {
          ReflectionKeywordInjective(t, i);
        }
      }
      if refType == i {
        shader.Enable(keyword);
      } else {
        shader.Disable(keyword);
      }
    }
  }

  /**
   * The SSR sample keywords: touched only when screen-space reflection is
   * selected, and then HIGH is on exactly for High steps and MEDIUM exactly
   * for Medium steps.
   */
  method SetSsrKeywords(shader: ShaderKeywords, refType: int, steps: int)
    modifies shader
    ensures refType == ScreenSpaceReflection ==>
              && (KeySsrHigh in shader.enabled <==> steps == SsrHigh)
              && (KeySsrMedium in shader.enabled <==> steps == SsrMedium)
    ensures refType != ScreenSpaceReflection ==> shader.enabled == old(shader.enabled)
    ensures SameOutside(shader.enabled, old(shader.enabled), {KeySsrHigh, KeySsrMedium})
  {
    if refType == ScreenSpaceReflection {
      if steps == SsrHigh {
        shader.Enable(KeySsrHigh);
        shader.Disable(KeySsrMedium);
      } else if steps == SsrMedium {
        shader.Disable(KeySsrHigh);
        shader.Enable(KeySsrMedium);
      } else {
        shader.Disable(KeySsrHigh);
        shader.Disable(KeySsrMedium);
      }
    }
  }

  /** Ocean.SetDebugMode: the debug keyword is on exactly for a mode other than `none` (0). */
  method SetDebugMode(shader: ShaderKeywords, mode: int)
    modifies shader
    ensures KeyDebugDisplay in shader.enabled <==> mode != 0
    ensures SameOutside(shader.enabled, old(shader.enabled), {KeyDebugDisplay})
  {
    if mode != 0 {
      shader.Enable(KeyDebugDisplay);
    } else {
      shader.Disable(KeyDebugDisplay);
    }
  }

  /** The keywords SetWaves and Init manage besides the reflection keywords are not reflection keywords. */
  lemma OtherKeywordsAreNotReflectionKeywords()
    ensures KeySsrHigh !in ReflectionKeywords && KeySsrMedium !in ReflectionKeywords
    ensures KeyStructuredBuffer !in ReflectionKeywords && KeyDebugDisplay !in ReflectionKeywords
    ensures KeyStructuredBuffer != KeySsrHigh && KeyStructuredBuffer != KeySsrMedium
    ensures KeyDebugDisplay !in {KeySsrHigh, KeySsrMedium, KeyStructuredBuffer}
  {
    assert KeyRefCubemap[1] == 'R' && KeyRefProbe[1] == 'R' && KeyRefPlanar[1] == 'R' && KeyRefSSR[1] == 'R';
    assert KeySsrHigh[1] == 'S' && KeySsrMedium[1] == 'S' && KeySsrHigh[0] == '_' && KeySsrMedium[0] == '_';
    assert KeyStructuredBuffer[0] == 'U' && KeyDebugDisplay[0] == 'B';
  }

  /**
   * The body of the generation loop up to the write: the spread of wave i and
   * its three draws, which leave the generator three draws further on.
   */
  method NextWave(random: GlobalRandom, settings: OceanSettings, i: int, n: int, draw: Draw, angular: real -> real)
    returns (wave: Vec3)
    requires 0 <= i < n
    requires random.state == RandomState(settings.randomSeed + i, 0)
    modifies random
    ensures wave == GeneratedWave(settings, i, n, draw, angular)
    ensures random.state == RandomState(settings.randomSeed + i, 3)
  {
    ghost var seed := settings.randomSeed + i;
    var p := Spread(i, n);
    var amp := random.Range(0.66, 1.24, draw);
    assert amp == draw(RandomState(seed, 0), 0.66, 1.24);
    var dir := random.Range(-90.0, 90.0, draw);
    assert dir == draw(RandomState(seed, 1), -90.0, 90.0);
    var len := random.Range(0.75, 1.2, draw);
    assert len == draw(RandomState(seed, 2), 0.75, 1.2);
    wave := WaveFrom(settings.basicWaveSettings, p, amp, dir, len, angular);
  }

  /**
   * The generation loop of SetupWaves, entered with the generator seeded with
   * `randomSeed`: wave i is computed from the three draws after seeding with
   * `randomSeed + i`, written to index i, and the generator re-seeded with
   * `randomSeed + i + 1`. Entries past the n generated are kept. When n exceeds
   * the array, the write of wave `Length` throws after its three draws.
   */
  method GenerateWaves(waves: array<Vec3>, random: GlobalRandom, settings: OceanSettings, draw: Draw, angular: real -> real)
    returns (o: Outcome)
    requires random.state == RandomState(settings.randomSeed, 0)
    modifies waves, random
    ensures var n := settings.basicWaveSettings.waveCount;
            o.Pass? <==> n <= waves.Length
    ensures o.Fail? ==> o.error == IndexOutOfRange && random.state == RandomState(settings.randomSeed + waves.Length, 3)
    ensures var n := settings.basicWaveSettings.waveCount;
            forall i :: 0 <= i < waves.Length ==>
              waves[i] == if i < n then GeneratedWave(settings, i, n, draw, angular) else old(waves[i])
  {
    var numWave := settings.basicWaveSettings.waveCount;
    var i := 0;
    while i < numWave
      invariant 0 <= i <= waves.Length && (i == 0 || i <= numWave)
      invariant random.state == RandomState(settings.randomSeed + i, 0)
      invariant forall k :: 0 <= k < waves.Length ==>
                  waves[k] == if k < i then GeneratedWave(settings, k, numWave, draw, angular) else old(waves[k])
    {
      var wave := NextWave(random, settings, i, numWave, draw, angular);
      if i >= waves.Length {
        return Fail(IndexOutOfRange);
      }
      waves[i] := wave;
      random.InitState(settings.randomSeed + i + 1);
      i := i + 1;
    }
    o := Pass;
  }

  /** The allocation of `_waveData` with `count` entries: a negative count throws. */
  method AllocateWaveData(jobs: GerstnerWavesJobs, count: int) returns (o: Outcome)
    modifies jobs`waveData
    ensures o.Pass? <==> 0 <= count
    ensures o.Fail? ==> o.error == ArgumentOutOfRange && jobs.waveData == old(jobs.waveData)
    ensures o.Pass? ==> jobs.waveData != null && fresh(jobs.waveData) && jobs.waveData.Length == count
  {
    if count < 0 {
      return Fail(ArgumentOutOfRange);
    }
    jobs.waveData := new Vec3[count];
    o := Pass;
  }

  /**
   * The compute-buffer decision of SetWaves: the flag stays set only if the
   * waves fit the graphics buffer limit (it is never set here), and the
   * structured-buffer keyword follows it.
   */
  method UpdateComputeBuffer(shader: ShaderKeywords, useComputeBuffer: bool, waveCount: int, maxGraphicsBufferSize: int)
    returns (use: bool)
    modifies shader
    ensures use <==> useComputeBuffer && waveCount * 12 <= maxGraphicsBufferSize
    ensures KeyStructuredBuffer in shader.enabled <==> use
    ensures SameOutside(shader.enabled, old(shader.enabled), {KeyStructuredBuffer})
  {
    use := useComputeBuffer && waveCount * 12 <= maxGraphicsBufferSize;
    if use {
      shader.Enable(KeyStructuredBuffer);
    } else {
      shader.Disable(KeyStructuredBuffer);
    }
  }

  /**
   * `new ComputeBuffer(count, 12)`: Unity refuses a buffer of no elements (or
   * fewer) with an ArgumentException.
   */
  function NewComputeBuffer(count: int): (o: Outcome)
    ensures o.Pass? <==> count > 0
    ensures o.Fail? ==> o.error == InvalidArgument
  {
    if count <= 0 then Fail(InvalidArgument) else Pass
  }

  /** h is the mean amplitude of the waves floored at 0.5, and 0.5 for no waves. */
  ghost predicate FlooredMeanAmplitude(h: real, waves: seq<Vec3>)
  {
    && h >= 0.5
    && (|waves| == 0 ==> h == 0.5)
    && (|waves| > 0 ==> var mean := SumAmplitudes(waves) / |waves| as real; h >= mean && (h == mean || h == 0.5))
  }

  /**
   * A spectrum whose waves all have amplitude a has its maximum wave height
   * at a, floored at 0.5.
   */
  lemma UniformSpectrumHeight(h: real, waves: seq<Vec3>, a: real)
    requires |waves| > 0 && forall k :: 0 <= k < |waves| ==> waves[k].x == a
    requires FlooredMeanAmplitude(h, waves)
    ensures h == if a > 0.5 then a else 0.5
  {
    SumOfEqualAmplitudes(waves, a);
    assert SumAmplitudes(waves) / |waves| as real == a;
  }

  /**
   * SetWaves got past SetupWaves: it passed, or only the compute-buffer
   * allocation at its end threw.
   */
  predicate WavesSetUp(o: Outcome)
  {
    o.Pass? || o == Fail(InvalidArgument)
  }

  class Ocean {
    var settingsData: OceanSettings
    /** `shadingDebug`, a DebugShading value; 0 is `none`. */
    var shadingDebug: int
    var useComputeBuffer: bool
    var maxWaveHeight: real
    var waveHeight: real

    constructor (settings: OceanSettings, debugMode: int, computeBuffer: bool)
      ensures settingsData == settings && shadingDebug == debugMode && useComputeBuffer == computeBuffer
      ensures maxWaveHeight == 0.0 && waveHeight == 0.0
    {
      settingsData, shadingDebug, useComputeBuffer := settings, debugMode, computeBuffer;
      maxWaveHeight, waveHeight := 0.0, 0.0;
    }

    /** The wave array exists and its first `waveCount` entries are the spectrum of the settings. */
    ghost predicate HoldsSpectrum(waves: array?<Vec3>, draw: Draw, angular: real -> real)
      reads this`settingsData, waves
    {
      var n := settingsData.basicWaveSettings.waveCount;
      && waves != null && n <= waves.Length
      && forall i :: 0 <= i < n ==> waves[i] == GeneratedWave(settingsData, i, n, draw, angular)
    }

    /**
     * The keyword selection of SetWaves holds: among the reflection keywords
     * only the selected type's is on, and with SSR selected the sample
     * keywords follow the step setting.
     */
    ghost predicate ReflectionSelected(enabled: set<string>)
      reads this`settingsData
    {
      && SelectsReflection(enabled, settingsData.refType)
      && (settingsData.refType == ScreenSpaceReflection ==>
            && (KeySsrHigh in enabled <==> settingsData.ssrSteps == SsrHigh)
            && (KeySsrMedium in enabled <==> settingsData.ssrSteps == SsrMedium))
    }

    /** The keywords SetWaves may switch. */
    ghost function WaveKeywords(): set<string>
      reads this`settingsData
    {
      if settingsData.refType == ScreenSpaceReflection
      then ReflectionKeywords + {KeySsrHigh, KeySsrMedium, KeyStructuredBuffer}
      else ReflectionKeywords + {KeyStructuredBuffer}
    }

    /**
     * SetupWaves: the generator's state is saved and seeded with the settings'
     * seed; the sampler's wave array is created with `waveCount` entries only
     * if it does not exist yet; the waves are generated; finally the saved
     * state is restored. So the spectrum depends on the settings alone, not on
     * the generator's state on entry. A negative count makes the allocation
     * throw; a count larger than a reused array makes the write past its end
     * throw. Either exception leaves the saved state unrestored.
     */
    method SetupWaves(jobs: GerstnerWavesJobs, random: GlobalRandom, draw: Draw, angular: real -> real) returns (o: Outcome)
      modifies jobs`waveData, jobs.waveData, random
      ensures var n := settingsData.basicWaveSettings.waveCount;
              o.Pass? <==> if old(jobs.waveData) == null then 0 <= n else n <= old(jobs.waveData.Length)
      ensures o.Pass? ==> random.state == old(random.state) && HoldsSpectrum(jobs.waveData, draw, angular)
      ensures old(jobs.waveData) != null ==> jobs.waveData == old(jobs.waveData)
      ensures old(jobs.waveData) == null && o.Pass? ==>
                fresh(jobs.waveData) && jobs.waveData.Length == settingsData.basicWaveSettings.waveCount
      ensures old(jobs.waveData) != null ==>
                var n := settingsData.basicWaveSettings.waveCount;
                forall i :: 0 <= i < jobs.waveData.Length ==>
                  jobs.waveData[i] == if i < n then GeneratedWave(settingsData, i, n, draw, angular)
                                      else old(jobs.waveData[i])
      ensures old(jobs.waveData) == null && o.Pass? ==>
                var n := settingsData.basicWaveSettings.waveCount;
                forall i :: 0 <= i < n ==> jobs.waveData[i] == GeneratedWave(settingsData, i, n, draw, angular)
      ensures o.Fail? && old(jobs.waveData) == null ==>
                o.error == ArgumentOutOfRange && random.state == RandomState(settingsData.randomSeed, 0)
      ensures o.Fail? && old(jobs.waveData) != null ==>
                && o.error == IndexOutOfRange
                && random.state == RandomState(settingsData.randomSeed + old(jobs.waveData.Length), 3)
    {
      var backupSeed := random.state;
      random.InitState(settingsData.randomSeed);
      if jobs.waveData == null {
        o := AllocateWaveData(jobs, settingsData.basicWaveSettings.waveCount);
        if o.Fail? {
          return;
        }
      }
      o := GenerateWaves(jobs.waveData, random, settingsData, draw, angular);
      if o.Fail? {
        return;
      }
      random.state := backupSeed;
    }

    /**
     * The keyword selection of SetWaves: the reflection loop, then the SSR
     * sample keywords.
     */
    method SetReflectionState(shader: ShaderKeywords)
      modifies shader
      ensures SelectsReflection(shader.enabled, settingsData.refType)
      ensures settingsData.refType == ScreenSpaceReflection ==>
                && (KeySsrHigh in shader.enabled <==> settingsData.ssrSteps == SsrHigh)
                && (KeySsrMedium in shader.enabled <==> settingsData.ssrSteps == SsrMedium)
      ensures SameOutside(shader.enabled, old(shader.enabled),
                          if settingsData.refType == ScreenSpaceReflection then ReflectionKeywords + {KeySsrHigh, KeySsrMedium}
                          else ReflectionKeywords)
    {
      OtherKeywordsAreNotReflectionKeywords();
      SetReflectionKeywords(shader, settingsData.refType);
      SetSsrKeywords(shader, settingsData.refType, settingsData.ssrSteps);
    }

    /**
     * SetWaves: the spectrum is set up (an exception there ends the call with
     * no keyword changed); the maximum wave height is the mean amplitude
     * floored at 0.5; the selected reflection type's keyword is the only
     * reflection keyword on; the SSR keywords follow the step setting when SSR
     * is selected; the compute-buffer flag is cleared when the waves do not fit
     * the graphics buffer limit and is never set; the structured-buffer keyword
     * follows it. No other keyword changes. With the flag still set, the
     * compute buffer is then created, which throws for an empty spectrum.
     */
    method SetWaves(jobs: GerstnerWavesJobs, random: GlobalRandom, shader: ShaderKeywords, draw: Draw,
                    angular: real -> real, positionY: real, maxGraphicsBufferSize: int) returns (o: Outcome)
      modifies this, jobs`waveData, jobs.waveData, random, shader
      ensures settingsData == old(settingsData) && shadingDebug == old(shadingDebug)
      ensures var n := settingsData.basicWaveSettings.waveCount;
              WavesSetUp(o) <==> if old(jobs.waveData) == null then 0 <= n else n <= old(jobs.waveData.Length)
      ensures old(jobs.waveData) != null ==> jobs.waveData == old(jobs.waveData)
      ensures WavesSetUp(o) ==> random.state == old(random.state) && HoldsSpectrum(jobs.waveData, draw, angular)
      ensures WavesSetUp(o) ==>
                jobs.waveData != null && FlooredMeanAmplitude(maxWaveHeight, jobs.waveData[..]) && waveHeight == positionY
      ensures WavesSetUp(o) ==> ReflectionSelected(shader.enabled)
      ensures WavesSetUp(o) ==>
                && jobs.waveData != null
                && useComputeBuffer == (old(useComputeBuffer) && jobs.waveData.Length * 12 <= maxGraphicsBufferSize)
                && (KeyStructuredBuffer in shader.enabled <==> useComputeBuffer)
                && (o.Fail? <==> useComputeBuffer && jobs.waveData.Length == 0)
      ensures WavesSetUp(o) ==> SameOutside(shader.enabled, old(shader.enabled), WaveKeywords())
      ensures !WavesSetUp(o) ==> shader.enabled == old(shader.enabled) && useComputeBuffer == old(useComputeBuffer)
      ensures useComputeBuffer ==> old(useComputeBuffer)
    {
      o := SetupWaves(jobs, random, draw, angular);
      if o.Fail? {
        return;
      }
      o := PublishWaves(jobs.waveData, shader, positionY, maxGraphicsBufferSize);
    }

    /**
     * The steps of SetWaves after SetupWaves: the floored mean amplitude, the
     * water height, the keyword selection and the compute-buffer decision,
     * ending with the creation of the compute buffer when the flag is still set.
     */
    method PublishWaves(waves: array<Vec3>, shader: ShaderKeywords, positionY: real, maxGraphicsBufferSize: int)
      returns (o: Outcome)
      modifies this`maxWaveHeight, this`waveHeight, this`useComputeBuffer, shader
      ensures FlooredMeanAmplitude(maxWaveHeight, waves[..]) && waveHeight == positionY
      ensures ReflectionSelected(shader.enabled)
      ensures useComputeBuffer == (old(useComputeBuffer) && waves.Length * 12 <= maxGraphicsBufferSize)
      ensures KeyStructuredBuffer in shader.enabled <==> useComputeBuffer
      ensures o.Fail? <==> useComputeBuffer && waves.Length == 0
      ensures o.Fail? ==> o.error == InvalidArgument
      ensures SameOutside(shader.enabled, old(shader.enabled), WaveKeywords())
    {
      maxWaveHeight := MaxWaveHeight(waves);
      waveHeight := positionY;
      SetReflectionState(shader);
      OtherKeywordsAreNotReflectionKeywords();
      useComputeBuffer := UpdateComputeBuffer(shader, useComputeBuffer, waves.Length, maxGraphicsBufferSize);
      o := Pass;
      if useComputeBuffer {
        o := NewComputeBuffer(waves.Length);
      }
    }

    /**
     * Init: the waves are set (an exception there ends the call), the debug
     * keyword is set, and the sampler is initialised only when it is not
     * already; an initialised sampler keeps its buffers. Everything SetWaves
     * establishes survives the two later steps.
     */
    method Init(jobs: GerstnerWavesJobs, random: GlobalRandom, shader: ShaderKeywords, draw: Draw,
                angular: real -> real, positionY: real, maxGraphicsBufferSize: int,
                waveDepthProfile: real -> real) returns (o: Outcome)
      requires jobs.Valid()
      modifies this, jobs, jobs.waveData, random, shader
      ensures jobs.Valid()
      ensures jobs.registry == old(jobs.registry) && jobs.positionCount == old(jobs.positionCount)
      ensures settingsData == old(settingsData) && shadingDebug == old(shadingDebug)
      ensures var n := settingsData.basicWaveSettings.waveCount;
              WavesSetUp(o) <==> if old(jobs.waveData) == null then 0 <= n else n <= old(jobs.waveData.Length)
      ensures WavesSetUp(o) ==> random.state == old(random.state) && HoldsSpectrum(jobs.waveData, draw, angular)
      ensures WavesSetUp(o) ==>
                jobs.waveData != null && FlooredMeanAmplitude(maxWaveHeight, jobs.waveData[..]) && waveHeight == positionY
      ensures WavesSetUp(o) ==> ReflectionSelected(shader.enabled)
      ensures WavesSetUp(o) ==>
                && jobs.waveData != null
                && useComputeBuffer == (old(useComputeBuffer) && jobs.waveData.Length * 12 <= maxGraphicsBufferSize)
                && (KeyStructuredBuffer in shader.enabled <==> useComputeBuffer)
                && (o.Fail? <==> useComputeBuffer && jobs.waveData.Length == 0)
      ensures o.Pass? ==> jobs.initialized && (KeyDebugDisplay in shader.enabled <==> shadingDebug != 0)
      ensures o.Pass? ==> SameOutside(shader.enabled, old(shader.enabled), WaveKeywords() + {KeyDebugDisplay})
      ensures o.Fail? ==> SameOutside(shader.enabled, old(shader.enabled), WaveKeywords())
      ensures o.Pass? && old(jobs.initialized) ==>
                && jobs.samplePositionsA == old(jobs.samplePositionsA) && jobs.samplePositionsB == old(jobs.samplePositionsB)
                && jobs.gerstnerWavesA == old(jobs.gerstnerWavesA) && jobs.gerstnerWavesB == old(jobs.gerstnerWavesB)
      ensures o.Pass? && !old(jobs.initialized) ==> fresh(jobs.samplePositionsB) && fresh(jobs.gerstnerWavesB)
      ensures o.Fail? ==> jobs.initialized == old(jobs.initialized)
    {
      o := SetWaves(jobs, random, shader, draw, angular, positionY, maxGraphicsBufferSize);
      if o.Fail? {
        return;
      }
      StartSampler(jobs, shader, waveDepthProfile);
      OtherKeywordsAreNotReflectionKeywords();
    }

    /**
     * The steps of Init after SetWaves: the debug keyword follows the debug
     * mode, and the sampler is initialised unless it already is. The wave
     * array, the registry and every other keyword are left alone.
     */
    method StartSampler(jobs: GerstnerWavesJobs, shader: ShaderKeywords, waveDepthProfile: real -> real)
      requires jobs.Valid()
      modifies jobs, shader
      ensures jobs.Valid() && jobs.initialized
      ensures jobs.registry == old(jobs.registry) && jobs.positionCount == old(jobs.positionCount)
      ensures jobs.waveData == old(jobs.waveData)
      ensures KeyDebugDisplay in shader.enabled <==> shadingDebug != 0
      ensures SameOutside(shader.enabled, old(shader.enabled), {KeyDebugDisplay})
      ensures old(jobs.initialized) ==>
                && jobs.samplePositionsA == old(jobs.samplePositionsA) && jobs.samplePositionsB == old(jobs.samplePositionsB)
                && jobs.gerstnerWavesA == old(jobs.gerstnerWavesA) && jobs.gerstnerWavesB == old(jobs.gerstnerWavesB)
      ensures !old(jobs.initialized) ==> fresh(jobs.samplePositionsB) && fresh(jobs.gerstnerWavesB)
    {
      SetDebugMode(shader, shadingDebug);
      if !jobs.initialized {
        jobs.Init(true, waveDepthProfile);
      }
    }
  }
}

=== FILE: sample_registry.dfy ===
/**
 * The index bookkeeping behind GerstnerWavesJobs (Runtime/GerstnerWavesJobs.cs):
 * a registry from consumer id to a half-open range [x, y) of the shared sample
 * buffers, and the position counter that marks the end of the used prefix.
 *
 * This module states, on values, what reserving and removing a range do and
 * which invariant they keep; the class in GerstnerWaves performs the same
 * updates in place and is proved against these definitions.
 */
module SampleRegistry {

  /** `sampleCount`: the number of float3 slots in each position buffer. */
  const SampleCount: int := 4096

  /** An `int2` offset pair: the consumer owns slots x .. y-1. */
  datatype Range = Range(x: int, y: int) {
    function Size(): int { y - x }
  }

  /** The `_registry` dictionary. */
  type Registry = map<int, Range>

  /** Slot k belongs to some registered range. */
  ghost predicate Covered(reg: Registry, k: int)
  {
    exists id :: id in reg && reg[id].x <= k < reg[id].y
  }

  /** The entry of id, if registered, lies inside [0, count). */
  ghost predicate InBounds(reg: Registry, id: int, count: int)
  {
    id in reg ==> 0 <= reg[id].x <= reg[id].y <= count
  }

  /** The entries of two distinct registered ids do not overlap. */
  ghost predicate Apart(reg: Registry, a: int, b: int)
  {
    a in reg && b in reg && a != b ==> reg[a].y <= reg[b].x || reg[b].y <= reg[a].x
  }

  /**
   * The registered ranges partition [0, count): each lies inside it, no two
   * overlap (an empty range may only sit on a boundary), and every slot of the
   * prefix is owned. The quantifiers hang on InBounds, Apart and Covered, so
   * they are only unfolded where a proof names one of them.
   */
  ghost predicate Tiles(reg: Registry, count: int)
  {
    && 0 <= count
    && (forall id :: InBounds(reg, id, count))
    && (forall a, b :: Apart(reg, a, b))
    && (forall k :: 0 <= k < count ==> Covered(reg, k))
  }

  /** The registry invariant: a tiling of the used prefix, which stays below the capacity. */
  ghost predicate Inv(reg: Registry, count: int)
  {
    Tiles(reg, count) && count < SampleCount
  }

  /**
   * The admission test of a new id: the extended prefix must stay strictly
   * below the buffer length (so a request that would fill the buffer exactly is
   * refused as well).
   */
  predicate Admits(count: int, len: int, capacity: int)
  {
    count + len < capacity
  }

  /** The entry after a removal of [min, min+size): later ranges move down by size. */
  function Shifted(r: Range, min: int, size: int): Range
  {
    if r.x > min then Range(r.x - size, r.y - size) else r
  }

  /** Every entry of reg, with those starting after min moved down by size. */
  function ShiftedAll(reg: Registry, min: int, size: int): Registry
  {
    map k | k in reg :: Shifted(reg[k], min, size)
  }

  /** A non-empty key set has a member to visit next. */
  lemma SomeKey(keys: set<int>)
    requires keys != {}
    ensures exists k :: k in keys
  {
    if forall k :: k !in keys {
      assert false;
    }
  }

  /** A registry with the keys of reg, each entry shifted, is ShiftedAll(reg, ...). */
  lemma ShiftedAllByEntries(reg: Registry, after: Registry, min: int, size: int)
    requires after.Keys == reg.Keys
    requires forall k :: k in after ==> after[k] == Shifted(reg[k], min, size)
    ensures after == ShiftedAll(reg, min, size)
  {
    var shifted := ShiftedAll(reg, min, size);
    assert shifted.Keys == after.Keys;
    assert forall k :: k in shifted ==> shifted[k] == after[k];
  }

  /** The registry after RemoveSamplePoints(id): id deleted, the survivors shifted. */
  function Removed(reg: Registry, id: int): (r: Registry)
    requires id in reg
    ensures r.Keys == reg.Keys - {id}
    ensures forall k :: k in r ==> r[k] == Shifted(reg[k], reg[id].x, reg[id].Size())
  {
    ShiftedAll(reg - {id}, reg[id].x, reg[id].Size())
  }

  /** A registered range lies inside the prefix, so its size is not negative. */
  lemma RegisteredInBounds(reg: Registry, count: int, id: int)
    requires Tiles(reg, count) && id in reg
    ensures 0 <= reg[id].x <= reg[id].y <= count
    ensures 0 <= reg[id].Size() <= count
  {
    assert InBounds(reg, id, count);
  }

  /** A new range appended at the end of the prefix keeps the tiling. */
  lemma {:induction false} ReservePreservesTiles(reg: Registry, count: int, id: int, len: int)
    requires Tiles(reg, count) && id !in reg && 0 <= len
    ensures Tiles(reg[id := Range(count, count + len)], count + len)
  {
    var reg' := reg[id := Range(count, count + len)];
    forall i | i in reg'
      ensures InBounds(reg', i, count + len)
    {
      assert InBounds(reg, i, count);
    }
    forall a, b
      ensures Apart(reg', a, b)
    {
      assert InBounds(reg, a, count) && InBounds(reg, b, count) && Apart(reg, a, b);
    }
    forall k | 0 <= k < count + len
      ensures Covered(reg', k)
    {
      if k < count {
        assert Covered(reg, k);
        var w :| w in reg && reg[w].x <= k < reg[w].y;
        assert reg'[w] == reg[w];
      } else {
        assert reg'[id].x <= k < reg'[id].y;
      }
    }
  }

  /** Admission keeps the whole invariant, refusal trivially so. */
  lemma ReservePreservesInv(reg: Registry, count: int, id: int, len: int)
    requires Inv(reg, count) && id !in reg && 0 <= len && Admits(count, len, SampleCount)
    ensures Inv(reg[id := Range(count, count + len)], count + len)
  {
    ReservePreservesTiles(reg, count, id, len);
  }

  /**
   * When the removed range is not empty, every other range lies wholly before
   * it (and is left alone) or wholly after it (and is shifted).
   */
  lemma SidesOfRemoved(reg: Registry, count: int, id: int, a: int)
    requires Tiles(reg, count) && id in reg && a in reg && a != id && reg[id].Size() > 0
    ensures reg[a].x <= reg[id].x ==> reg[a].y <= reg[id].x
    ensures reg[a].x > reg[id].x ==> reg[a].x >= reg[id].y
  {
    assert InBounds(reg, a, count) && Apart(reg, a, id);
  }

  /**
   * Where each survivor of a non-empty removal ends up: inside the shorter
   * prefix, in place when it started before the removed range, moved down by
   * the removed size when it started after it.
   */
  lemma SurvivorsOfRemoval(reg: Registry, count: int, id: int)
    requires Tiles(reg, count) && id in reg && reg[id].Size() > 0
    ensures forall a :: a in Removed(reg, id) ==> 0 <= Removed(reg, id)[a].x <= Removed(reg, id)[a].y <= count - reg[id].Size()
    ensures forall a :: a in Removed(reg, id) && reg[a].x <= reg[id].x ==>
              Removed(reg, id)[a] == reg[a] && reg[a].y <= reg[id].x
    ensures forall a :: a in Removed(reg, id) && reg[a].x > reg[id].x ==>
              reg[a].x >= reg[id].y && Removed(reg, id)[a] == Range(reg[a].x - reg[id].Size(), reg[a].y - reg[id].Size())
  {
    var reg' := Removed(reg, id);
    RegisteredInBounds(reg, count, id);
    forall a | a in reg'
      ensures 0 <= reg'[a].x <= reg'[a].y <= count - reg[id].Size()
      ensures reg[a].x <= reg[id].x ==> reg'[a] == reg[a] && reg[a].y <= reg[id].x
      ensures reg[a].x > reg[id].x ==> reg[a].x >= reg[id].y
    {
      SidesOfRemoved(reg, count, id, a);
      RegisteredInBounds(reg, count, a);
    }
  }

  /** Removing an empty range moves nothing, so the tiling is unchanged. */
  lemma {:induction false} RemoveEmptyPreservesTiles(reg: Registry, count: int, id: int)
    requires Tiles(reg, count) && id in reg && reg[id].Size() == 0
    ensures Tiles(Removed(reg, id), count)
  {
    var reg' := Removed(reg, id);
    assert forall a :: a in reg' ==> reg'[a] == reg[a];
    forall i
      ensures InBounds(reg', i, count)
    {
      assert InBounds(reg, i, count);
    }
    forall a, b
      ensures Apart(reg', a, b)
    {
      assert Apart(reg, a, b);
    }
    forall k | 0 <= k < count
      ensures Covered(reg', k)
    {
      assert Covered(reg, k);
      var w :| w in reg && reg[w].x <= k < reg[w].y;
      assert reg'[w] == reg[w];
    }
  }

  /** After a non-empty removal the survivors still do not overlap. */
  lemma {:induction false} RemovedApart(reg: Registry, count: int, id: int)
    requires Tiles(reg, count) && id in reg && reg[id].Size() > 0
    ensures forall a, b :: Apart(Removed(reg, id), a, b)
  {
    var reg' := Removed(reg, id);
    SurvivorsOfRemoval(reg, count, id);
    forall a, b
      ensures Apart(reg', a, b)
    {
      if a in reg' && b in reg' && a != b {
        assert Apart(reg, a, b);
      }
    }
  }

  /**
   * After a non-empty removal every slot of the shorter prefix is owned: a slot
   * before the gap by its old owner, a later slot k by the owner of k + size.
   */
  lemma {:induction false} RemovedCovered(reg: Registry, count: int, id: int)
    requires Tiles(reg, count) && id in reg && reg[id].Size() > 0
    ensures forall k :: 0 <= k < count - reg[id].Size() ==> Covered(Removed(reg, id), k)
  {
    var min, size := reg[id].x, reg[id].Size();
    var reg' := Removed(reg, id);
    forall k | 0 <= k < count - size
      ensures Covered(reg', k)
    {
      if k < min {
        assert Covered(reg, k);
        var w :| w in reg && reg[w].x <= k < reg[w].y;
        assert reg'[w] == reg[w];
      } else {
        assert Covered(reg, k + size);
        var w :| w in reg && reg[w].x <= k + size < reg[w].y;
        SidesOfRemoved(reg, count, id, w);
        assert reg'[w] == Range(reg[w].x - size, reg[w].y - size);
      }
    }
  }

  /** Removal closes the gap: the remaining ranges tile the shorter prefix. */
  lemma {:induction false} RemovePreservesTiles(reg: Registry, count: int, id: int)
    requires Tiles(reg, count) && id in reg
    ensures Tiles(Removed(reg, id), count - reg[id].Size())
  {
    RegisteredInBounds(reg, count, id);
    if reg[id].Size() == 0 {
      RemoveEmptyPreservesTiles(reg, count, id);
    } else {
      SurvivorsOfRemoval(reg, count, id);
      RemovedApart(reg, count, id);
      RemovedCovered(reg, count, id);
    }
  }

  /** Removal keeps the whole invariant and does not grow the prefix. */
  lemma RemovePreservesInv(reg: Registry, count: int, id: int)
    requires Inv(reg, count) && id in reg
    ensures Inv(Removed(reg, id), count - reg[id].Size())
    ensures 0 <= count - reg[id].Size() <= count
  {
    RegisteredInBounds(reg, count, id);
    RemovePreservesTiles(reg, count, id);
  }

  /**
   * What a removal does to each surviving entry: its size is kept, a range
   * before the removed one is untouched, a range after it moves down by the
   * removed size, and the order of starts is kept.
   */
  lemma RemovedEntries(reg: Registry, count: int, id: int)
    requires Tiles(reg, count) && id in reg
    ensures forall a :: a in Removed(reg, id) ==> Removed(reg, id)[a].Size() == reg[a].Size()
    ensures forall a :: a in Removed(reg, id) && reg[a].x < reg[id].x ==> Removed(reg, id)[a] == reg[a]
    ensures forall a :: a in Removed(reg, id) && reg[a].x > reg[id].x ==>
              Removed(reg, id)[a].x == reg[a].x - reg[id].Size()
    ensures forall a, b :: a in Removed(reg, id) && b in Removed(reg, id) && reg[a].x < reg[b].x ==>
              Removed(reg, id)[a].x <= Removed(reg, id)[b].x
  {
    var reg' := Removed(reg, id);
    RegisteredInBounds(reg, count, id);
    forall a, b | a in reg' && b in reg' && reg[a].x < reg[b].x
      ensures reg'[a].x <= reg'[b].x
    {
      if reg[id].Size() > 0 {
        SidesOfRemoved(reg, count, id, a);
        SidesOfRemoved(reg, count, id, b);
      }
    }
  }

  /** Consumers A (5 slots), B (3) and C (2) registered in order; removing B moves C down by 3. */
  lemma RemovalCompactionExample()
    ensures Removed(map[1 := Range(0, 5), 2 := Range(5, 8), 3 := Range(8, 10)], 2)
            == map[1 := Range(0, 5), 3 := Range(5, 7)]
  {
    var reg := map[1 := Range(0, 5), 2 := Range(5, 8), 3 := Range(8, 10)];
    assert Removed(reg, 2).Keys == {1, 3};
  }
}

=== FILE: water_event.dfy ===
/**
 * The single-point water trigger (Runtime/Physics/WaterEvent.cs): each frame it
 * decides whether its point is under the surface, moves a four-state machine
 * (None, Submerged, Entered, Exited) and tells its listeners about changes.
 *
 * The submersion test itself (the sign of the dot product between the wave
 * normal and the direction to the object) is float geometry over the sampler's
 * output; it enters the model as the boolean `facingBelow`.
 */
module WaterEvents {
  import opened WaterData
  import opened SampleRegistry
  import opened GerstnerWaves

  /** WaterEventType. */
  datatype WaterEventType = None | Submerged | Entered | Exited

  /**
   * The state CheckState computes from the previous and the new submersion:
   * Entered and Exited mark a change, Submerged and None its absence, and the
   * state is Submerged or Entered exactly when the point is now under water.
   * The two facts together determine the state.
   */
  function NextState(prevSubmerged: bool, submerged: bool): (s: WaterEventType)
    ensures (s == Entered || s == Exited) <==> prevSubmerged != submerged
    ensures (s == Submerged || s == Entered) <==> submerged
  {
    if submerged then (if prevSubmerged then Submerged else Entered)
    else (if prevSubmerged then Exited else None)
  }

  /** Each state arises from exactly one pair of submersion flags. */
  lemma NextStateInjective(p1: bool, s1: bool, p2: bool, s2: bool)
    requires NextState(p1, s1) == NextState(p2, s2)
    ensures p1 == p2 && s1 == s2
  {
  }

  /**
   * Whenever the submersion changes, the state is Entered or Exited, so the
   * argument `currentState == Submerged` handed to submerged listeners is
   * always false.
   */
  lemma SubmergedArgumentAlwaysFalse(prevSubmerged: bool, submerged: bool)
    requires prevSubmerged != submerged
    ensures NextState(prevSubmerged, submerged) != Submerged
  {
  }

  /** UnityEvent<WaterEventType>.Invoke on collision listener `listener`. */
  datatype CollisionCall = CollisionCall(listener: int, state: WaterEventType)

  /** UnityEvent<bool>.Invoke on submerged listener `listener`. */
  datatype SubmergedCall = SubmergedCall(listener: int, submerged: bool)

  class WaterEvent {
    /** `gameObject.GetInstanceID()`: the id under which the point is registered. */
    const instanceId: int
    /** The listener lists, by listener identity. */
    var collisionEvents: seq<int>
    var submergedEvents: seq<int>
    var currentState: WaterEventType
    var previousState: WaterEventType
    var prevSubmerged: bool
    var submerged: bool
    /** `_samplePosition`: null while not created. */
    var samplePosition: array?<Vec3>

    /**
     * The current state always agrees with the two submersion flags, and the
     * sample buffer, once created, holds one point.
     */
    ghost predicate Valid()
      reads this
    {
      && currentState == NextState(prevSubmerged, submerged)
      && (samplePosition != null ==> samplePosition.Length == 1)
    }

    /** The field initialisers: every enum and flag at its default. */
    constructor (id: int, collisionListeners: seq<int>, submergedListeners: seq<int>)
      ensures Valid()
      ensures instanceId == id && collisionEvents == collisionListeners && submergedEvents == submergedListeners
      ensures currentState == None && previousState == None && !prevSubmerged && !submerged
      ensures samplePosition == null
    {
      instanceId := id;
      collisionEvents, submergedEvents := collisionListeners, submergedListeners;
      currentState, previousState := None, None;
      prevSubmerged, submerged := false, false;
      samplePosition := null;
    }

    /**
     * CheckState: the old state and flag are saved, the flag takes the new
     * submersion and the state follows from the pair.
     */
    method CheckState(facingBelow: bool)
      requires Valid()
      modifies this
      ensures Valid()
      ensures previousState == old(currentState) && prevSubmerged == old(submerged)
      ensures submerged == facingBelow
      ensures collisionEvents == old(collisionEvents) && submergedEvents == old(submergedEvents)
      ensures samplePosition == old(samplePosition)
    {
      previousState := currentState;
      prevSubmerged := submerged;
      submerged := facingBelow;
      if submerged {
        currentState := if prevSubmerged then Submerged else Entered;
      } else {
        currentState := if prevSubmerged then Exited else None;
      }
    }

    /**
     * The two listener loops of Update: when playing, every collision listener
     * is called once, in order, with the current state exactly when the state
     * changed, and every submerged listener once with `currentState ==
     * Submerged` exactly when the submersion changed. Nothing is called when
     * not playing.
     */
    method Dispatch(isPlaying: bool) returns (collisionCalls: seq<CollisionCall>, submergedCalls: seq<SubmergedCall>)
      requires Valid()
      ensures !isPlaying ==> collisionCalls == [] && submergedCalls == []
      ensures isPlaying ==>
                && |collisionCalls| == (if previousState != currentState then |collisionEvents| else 0)
                && forall i :: 0 <= i < |collisionCalls| ==>
                     collisionCalls[i] == CollisionCall(collisionEvents[i], currentState)
      ensures isPlaying ==>
                && |submergedCalls| == (if prevSubmerged != submerged then |submergedEvents| else 0)
                && forall i :: 0 <= i < |submergedCalls| ==>
                     submergedCalls[i] == SubmergedCall(submergedEvents[i], false)
    {
      collisionCalls, submergedCalls := [], [];
      if !isPlaying {
        return;
      }
      for i := 0 to |collisionEvents|
        invariant |collisionCalls| == (if previousState != currentState then i else 0)
        invariant forall k :: 0 <= k < |collisionCalls| ==>
                    collisionCalls[k] == CollisionCall(collisionEvents[k], currentState)
      {
        if previousState != currentState {
          collisionCalls := collisionCalls + [CollisionCall(collisionEvents[i], currentState)];
        }
      }
      for i := 0 to |submergedEvents|
        invariant |submergedCalls| == (if prevSubmerged != submerged then i else 0)
        invariant forall k :: 0 <= k < |submergedCalls| ==>
                    submergedCalls[k] == SubmergedCall(submergedEvents[k], false)
      {
        if prevSubmerged != submerged {
          SubmergedArgumentAlwaysFalse(prevSubmerged, submerged);
          submergedCalls := submergedCalls + [SubmergedCall(submergedEvents[i], currentState == Submerged)];
        }
      }
    }

    /**
     * The state-machine part of Update: CheckState with the new submersion,
     * then the listener loops.
     */
    method Update(facingBelow: bool, isPlaying: bool) returns (collisionCalls: seq<CollisionCall>, submergedCalls: seq<SubmergedCall>)
      requires Valid()
      modifies this
      ensures Valid()
      ensures previousState == old(currentState) && prevSubmerged == old(submerged) && submerged == facingBelow
      ensures collisionEvents == old(collisionEvents) && submergedEvents == old(submergedEvents)
      ensures !isPlaying ==> collisionCalls == [] && submergedCalls == []
      ensures isPlaying ==>
                && |collisionCalls| == (if old(currentState) != currentState then |collisionEvents| else 0)
                && forall i :: 0 <= i < |collisionCalls| ==> collisionCalls[i] == CollisionCall(collisionEvents[i], currentState)
      ensures isPlaying ==>
                && |submergedCalls| == (if old(submerged) != facingBelow then |submergedEvents| else 0)
                && forall i :: 0 <= i < |submergedCalls| ==> submergedCalls[i] == SubmergedCall(submergedEvents[i], false)
    {
      CheckState(facingBelow);
      collisionCalls, submergedCalls := Dispatch(isPlaying);
    }

    /**
     * UpdateSamplePoint: the one-point buffer is created on first use and its
     * point is set to the object's position.
     */
    method UpdateSamplePoint(position: Vec3)
      requires Valid()
      modifies this, samplePosition
      ensures Valid() && samplePosition != null && samplePosition[..] == [position]
      ensures old(samplePosition) == null ==> fresh(samplePosition)
      ensures old(samplePosition) != null ==> samplePosition == old(samplePosition)
      ensures collisionEvents == old(collisionEvents) && submergedEvents == old(submergedEvents)
      ensures currentState == old(currentState) && previousState == old(previousState)
      ensures prevSubmerged == old(prevSubmerged) && submerged == old(submerged)
    {
      if samplePosition == null {
        samplePosition := new Vec3[1];
      }
      samplePosition[0] := position;
    }

    /**
     * OnDisable: the point is unregistered from the sampler (the remaining
     * ranges close up) and the one-point buffer is released.
     */
    method OnDisable(jobs: GerstnerWavesJobs)
      requires Valid() && jobs.Valid()
      modifies this, jobs
      ensures Valid() && jobs.Valid() && instanceId !in jobs.registry
      ensures instanceId in old(jobs.registry) ==> jobs.registry == Removed(old(jobs.registry), instanceId)
      ensures instanceId !in old(jobs.registry) ==> jobs.registry == old(jobs.registry)
      ensures instanceId in old(jobs.registry) ==>
                jobs.positionCount == old(jobs.positionCount) - old(jobs.registry)[instanceId].Size()
      ensures instanceId !in old(jobs.registry) ==> jobs.positionCount == old(jobs.positionCount)
      ensures jobs.OnlyRegistryChanged()
      ensures samplePosition == null
      ensures currentState == old(currentState) && submerged == old(submerged) && prevSubmerged == old(prevSubmerged)
      ensures previousState == old(previousState)
      ensures collisionEvents == old(collisionEvents) && submergedEvents == old(submergedEvents)
    {
      jobs.RemoveSamplePoints(instanceId);
      samplePosition := null;
    }
  }

  /**
   * Collision listeners also fire when the submersion did not change: after
   * entering the water, a second frame under water moves Entered to
   * Submerged, a change of state with the same submersion flag.
   */
  lemma CollisionWithoutSubmersionChange()
    ensures NextState(false, true) == Entered
    ensures NextState(true, true) == Submerged
    ensures NextState(false, true) != NextState(true, true)
  {
  }
}

=== FILE: water_level_debug.dfy ===
/**
 * The debug grid of sample points (Runtime/Physics/WaterLevelDebug.cs): an
 * nx-by-ny grid of points around the object, registered with the wave sampler
 * under the object's id, re-registered whenever the grid changes size.
 *
 * `arrayCount` is an int2 edited in the inspector, so either component may be
 * negative; its product is taken as an unbounded integer here.
 */
module WaterLevelDebugging {
  import opened Wrappers
  import opened WaterData
  import opened SampleRegistry
  import opened GerstnerWaves

  /** The offset of grid line i of n, spaced `spacing` apart and centred on 0. */
  function Offset(spacing: real, n: int, i: int): real
  {
    spacing * i as real - spacing * (n - 1) as real * 0.5
  }

  /** The grid lines are placed symmetrically: line i and line n-1-i balance. */
  lemma OffsetCentred(spacing: real, n: int, i: int)
    ensures Offset(spacing, n, i) + Offset(spacing, n, n - 1 - i) == 0.0
  {
    calc {
      Offset(spacing, n, i) + Offset(spacing, n, n - 1 - i);
      spacing * (i as real + (n - 1 - i) as real) - spacing * (n - 1) as real;
      0.0;
    }
  }

  /** Consecutive grid lines are `spacing` apart. */
  lemma OffsetStep(spacing: real, n: int, i: int)
    ensures Offset(spacing, n, i + 1) - Offset(spacing, n, i) == spacing
  {
    assert spacing * (i + 1) as real == spacing * i as real + spacing;
  }

  /** The local point of grid cell (i, j): its height is always 0. */
  function GridPoint(spacing: real, nx: int, ny: int, i: int, j: int): Vec3
  {
    Vec3(Offset(spacing, nx, i), 0.0, Offset(spacing, ny, j))
  }

  /** Multiplying by a non-negative factor keeps the order. */
  lemma MulMonotone(a: int, b: int, c: int)
    requires a <= b && 0 <= c
    ensures a * c <= b * c
  {
    assert b * c - a * c == (b - a) * c;
  }

  /** Euclidean division of i*n + j by n, for 0 <= j < n, gives back i and j. */
  lemma {:induction false} DivModUnique(n: int, i: int, j: int)
    requires 0 <= j < n
    ensures (i * n + j) / n == i && (i * n + j) % n == j
  {
    var k := i * n + j;
    var q, r := k / n, k % n;
    assert q * n + r == k && 0 <= r < n;
    assert (q - i) * n == j - r;
    if q > i {
      MulMonotone(1, q - i, n);
    } else if q < i {
      MulMonotone(1, i - q, n);
    }
  }

  /** Cell (i, j) is stored at index i*ny + j, inside the nx*ny buffer, and the index gives the cell back. */
  lemma {:induction false} GridIndexRoundTrip(nx: int, ny: int, i: int, j: int)
    requires 0 <= i < nx && 0 <= j < ny
    ensures 0 <= i * ny + j < nx * ny
    ensures (i * ny + j) / ny == i && (i * ny + j) % ny == j
  {
    MulMonotone(0, i, ny);
    MulMonotone(i + 1, nx, ny);
    assert (i + 1) * ny == i * ny + ny;
    DivModUnique(ny, i, j);
  }

  /** Every index of the nx*ny buffer is the index of one cell. */
  lemma {:induction false} GridIndexOnto(nx: int, ny: int, k: int)
    requires 0 < ny && 0 <= k < nx * ny
    ensures 0 <= k / ny < nx && 0 <= k % ny < ny
    ensures (k / ny) * ny + k % ny == k
  {
    var q := k / ny;
    if nx <= q {
      MulMonotone(nx, q, ny);
    }
  }

  /**
   * The nested loop of UpdateSamplePoints. With a positive grid, buffer index
   * k = i*ny + j receives the transformed point of cell (i, j), so every index
   * is written, once, by the cell it encodes; with an empty or negative grid
   * no index is written.
   */
  method FillGrid(samplePositions: array<Vec3>, nx: int, ny: int, spacing: real, transform: Vec3 -> Vec3)
    requires samplePositions.Length == nx * ny
    modifies samplePositions
    ensures 0 < nx && 0 < ny ==> forall k :: 0 <= k < samplePositions.Length ==>
              samplePositions[k] == transform(GridPoint(spacing, nx, ny, k / ny, k % ny))
    ensures !(0 < nx && 0 < ny) ==> samplePositions[..] == old(samplePositions[..])
  {
    var pos := Vec3(0.0, 0.0, 0.0);
    var i := 0;
    while i < nx
      invariant 0 <= i && (0 < nx ==> i <= nx)
      invariant pos.y == 0.0
      invariant forall k :: 0 <= k < samplePositions.Length ==>
                  samplePositions[k] == if 0 < ny && k < i * ny then transform(GridPoint(spacing, nx, ny, k / ny, k % ny))
                                        else old(samplePositions[k])
    {
      pos := pos.(x := Offset(spacing, nx, i));
      var j := 0;
      while j < ny
        invariant 0 <= j && (0 < ny ==> j <= ny)
        invariant pos.y == 0.0 && pos.x == Offset(spacing, nx, i)
        invariant forall k :: 0 <= k < samplePositions.Length ==>
                    samplePositions[k] == if 0 < ny && k < i * ny + j then transform(GridPoint(spacing, nx, ny, k / ny, k % ny))
                                          else old(samplePositions[k])
      {
        pos := pos.(z := Offset(spacing, ny, j));
        GridIndexRoundTrip(nx, ny, i, j);
        samplePositions[i * ny + j] := transform(pos);
        j := j + 1;
      }
      assert 0 < ny ==> i * ny + j == (i + 1) * ny;
      i := i + 1;
    }
    assert 0 < nx ==> i * ny == nx * ny;
  }

  class WaterLevelDebug {
    /** `gameObject.GetInstanceID()`. */
    const instanceId: int
    /** `arrayCount.x`, `arrayCount.y`. */
    var nx: int
    var ny: int
    var arraySpacing: real
    /** `samplePositions`: null while not created. */
    var samplePositions: array?<Vec3>
    /** `positions`: the copy of the sampler's output. */
    var positions: array?<WaveOutputData>

    /** The field initialisers: a 1x1 grid, spacing 1, nothing allocated. */
    constructor (id: int)
      ensures instanceId == id && nx == 1 && ny == 1 && arraySpacing == 1.0
      ensures samplePositions == null && positions == null
    {
      instanceId := id;
      nx, ny := 1, 1;
      arraySpacing := 1.0;
      samplePositions, positions := null, null;
    }

    /**
     * The registration of the grid agrees with the buffer: a registered range
     * has exactly as many slots as the grid has points.
     */
    ghost predicate InSync(jobs: GerstnerWavesJobs)
      reads this, jobs
    {
      instanceId in jobs.registry ==> samplePositions != null && jobs.registry[instanceId].Size() == samplePositions.Length
    }

    /**
     * The registry after the buffer check: a stale buffer (one that exists
     * with the wrong length) has its registration removed.
     */
    ghost function AfterReserve(reg: Registry, stale: bool): Registry
    {
      if stale && instanceId in reg then Removed(reg, instanceId) else reg
    }

    /**
     * The first half of UpdateSamplePoints: the buffer is created when
     * missing; when its length is not nx*ny the grid is first unregistered,
     * then the buffer replaced; a negative nx*ny makes the allocation throw.
     * The registration stays in step with the buffer.
     */
    method ReserveBuffer(jobs: GerstnerWavesJobs) returns (o: Outcome)
      requires jobs.Valid()
      modifies this`samplePositions, jobs
      ensures jobs.Valid() && jobs.OnlyRegistryChanged()
      ensures o.Fail? <==> nx * ny < 0
      ensures o.Fail? ==> o.error == ArgumentOutOfRange && samplePositions == null
      ensures o.Pass? ==> samplePositions != null && samplePositions.Length == nx * ny
      ensures old(InSync(jobs)) ==> InSync(jobs)
      ensures jobs.registry == AfterReserve(old(jobs.registry), old(samplePositions) != null && old(samplePositions.Length) != nx * ny)
      ensures old(samplePositions) != null && old(samplePositions.Length) != nx * ny ==> instanceId !in jobs.registry
      ensures old(samplePositions) != null && old(samplePositions.Length) == nx * ny ==> samplePositions == old(samplePositions)
      ensures samplePositions != old(samplePositions) && samplePositions != null ==> fresh(samplePositions)
    {
      var count := nx * ny;
      if samplePositions == null {
        if count < 0 {
          return Fail(ArgumentOutOfRange);
        }
        samplePositions := new Vec3[count];
      }
      if samplePositions.Length != count {
        jobs.RemoveSamplePoints(instanceId);
        samplePositions := null;
        if count < 0 {
          return Fail(ArgumentOutOfRange);
        }
        samplePositions := new Vec3[count];
      }
      o := Pass;
    }

    /**
     * The second half of UpdateSamplePoints: the grid is filled and the output
     * copy is resized to the buffer's length when it differs.
     */
    method FillAndResize(transform: Vec3 -> Vec3)
      requires samplePositions != null && samplePositions.Length == nx * ny
      modifies this`positions, samplePositions
      ensures positions != null && positions.Length == samplePositions.Length
      ensures old(positions) != null && old(positions.Length) == samplePositions.Length ==> positions == old(positions)
      ensures positions != old(positions) ==> fresh(positions)
      ensures 0 < nx && 0 < ny ==> forall k :: 0 <= k < samplePositions.Length ==>
                samplePositions[k] == transform(GridPoint(arraySpacing, nx, ny, k / ny, k % ny))
    {
      FillGrid(samplePositions, nx, ny, arraySpacing, transform);
      if positions == null || positions.Length != samplePositions.Length {
        positions := new WaveOutputData[samplePositions.Length];
      }
    }

    /**
     * UpdateSamplePoints: the buffer is made to hold nx*ny points, a stale
     * registration being dropped first; then the grid is filled and the output
     * copy sized to match. The registration always stays in step with the
     * buffer, so the sampler's next update either writes a range of exactly
     * the grid's size or reserves a fresh one.
     */
    method UpdateSamplePoints(jobs: GerstnerWavesJobs, transform: Vec3 -> Vec3) returns (o: Outcome)
      requires jobs.Valid()
      requires samplePositions == null || samplePositions != jobs.samplePositionsB
      modifies this, samplePositions, jobs
      ensures jobs.Valid() && jobs.OnlyRegistryChanged()
      ensures nx == old(nx) && ny == old(ny) && arraySpacing == old(arraySpacing)
      ensures o.Fail? <==> nx * ny < 0
      ensures o.Fail? ==> o.error == ArgumentOutOfRange && samplePositions == null
      ensures old(InSync(jobs)) ==> InSync(jobs)
      ensures jobs.registry == AfterReserve(old(jobs.registry), old(samplePositions) != null && old(samplePositions.Length) != nx * ny)
      ensures old(samplePositions) != null && old(samplePositions.Length) != nx * ny ==> instanceId !in jobs.registry
      ensures o.Pass? ==>
                && samplePositions != null && samplePositions.Length == nx * ny
                && positions != null && positions.Length == samplePositions.Length
      ensures o.Pass? && old(samplePositions) != null && old(samplePositions.Length) == nx * ny ==>
                samplePositions == old(samplePositions)
      ensures o.Pass? && old(positions) != null && old(positions.Length) == nx * ny ==> positions == old(positions)
      ensures o.Pass? && positions != old(positions) ==> fresh(positions)
      ensures o.Fail? ==> positions == old(positions)
      ensures o.Pass? && 0 < nx && 0 < ny ==> forall k :: 0 <= k < samplePositions.Length ==>
                samplePositions[k] == transform(GridPoint(arraySpacing, nx, ny, k / ny, k % ny))
    {
      o := ReserveBuffer(jobs);
      if o.Fail? {
        return;
      }
      FillAndResize(transform);
    }

    /** Cleanup: the grid is unregistered, then its buffer released. */
    method Cleanup(jobs: GerstnerWavesJobs)
      requires jobs.Valid()
      modifies this`samplePositions, jobs
      ensures jobs.Valid() && InSync(jobs) && jobs.OnlyRegistryChanged()
      ensures instanceId !in jobs.registry && samplePositions == null
      ensures jobs.registry == AfterReserve(old(jobs.registry), true)
      ensures instanceId in old(jobs.registry) ==>
                jobs.positionCount == old(jobs.positionCount) - old(jobs.registry)[instanceId].Size()
      ensures instanceId !in old(jobs.registry) ==> jobs.positionCount == old(jobs.positionCount)
      ensures nx == old(nx) && ny == old(ny) && arraySpacing == old(arraySpacing) && positions == old(positions)
    {
      jobs.RemoveSamplePoints(instanceId);
      samplePositions := null;
    }
  }
}

=== FILE: wrappers.dfy ===
/** Failure-carrying results for the operations whose C# counterparts throw. */
module Wrappers {

  /** The exceptions the modelled code can raise. */
  datatype Error =
    | ArgumentOutOfRange   // a switch default or a negative NativeArray length
    | IndexOutOfRange      // a NativeArray index past its end
    | KeyNotFound          // Dictionary indexer on a missing key
    | DuplicateKey         // Dictionary.Add on a key already present
    | InvalidArgument      // an ArgumentException, such as a compute buffer of no elements
    | ObjectDisposed       // Dispose of a NativeArray that is already disposed

  datatype Option<+T> = None | Some(value: T)

  datatype Result<+T> = Success(value: T) | Failure(error: Error)

  datatype Outcome = Pass | Fail(error: Error)
}
